=== FILE: README.md ===
# Tile-game core in Dafny

A model of the game logic of a small Java side-scrolling platform game, with
proofs about that model. The model covers these parts of the game:

- **Input actions** (`GameAction`). Each action is a three-state debounce
  machine: `Released`, `Pressed` and `WaitForRelease`. It accumulates an
  `amount`, and reads of the amount consume it (`getAmount`, `isPressed`).
  Two behaviours exist, `NORMAL` and `DETECT_INITAL_PRESS_ONLY`.
- **Thin entry points into the actions.** The key, mouse-click and
  mouse-move commands, and the `GameActionFactory`.
- **The engine tick** (`GameEngine`):
  - the tile sweep test;
  - the sprite overlap test and the first-match sprite search;
  - axis-separated clamping of creatures against tiles;
  - the player's contacts with creatures, including the kill rule;
  - the star and lives counters;
  - the input read of each tick;
  - the pruning of dead creatures.
- **The frame animation** (`Animation`). Its clock wraps modulo the total
  duration.
- **The power-up factory.** A map type name selects a kind, compared
  without regard to case.
- **Display-mode matching.** A wildcard comparison, and the first requested
  mode that the device supports.

Every Java object the model touches becomes an immutable datatype, and every
mutating method becomes a function that returns the new value. Java `int`
arithmetic on amounts wraps (`JavaInt.Add32`). The animation's `long` clock
wraps too (`Add64`), and its `%` truncates toward zero (`JavaRem`).

The engine's state is `Engine.Game`. It holds:

- the loaded map;
- a `generation` counter that stands for the identity of the `map` object;
- the four actions;
- the two counters;
- a log of calls into collaborators whose code is not part of this model.

The sprites' `collideHorizontal`, `collideVertical`, `jump` and `update`,
and the loop's `stop`, are recorded in that log in call order. Their effects
are not applied.

`Sprite`, `Creature`, `Player`, `TileMap`, `TileMapDrawer` and `MapLoader`
are not part of this model. They are represented as follows:

- Sprites are records with an identity, a kind, an integer position and
  speed, a size, a `flying` flag and a life state.
- The map is a set of occupied tiles, a width in tiles, a tile size, the
  sprite sequence and the player.
- `pixelsToTiles` is floor division by the tile size.
- What the map loader answers is an input of the tick (`Engine.Env`).

`isAlive` is `state == Alive`.

Two details of the code that the model keeps:

- Dead creatures are removed in the sprite loop, after the player has moved
  (GameEngine.java:195-207). Collision tests skip creatures that are not
  alive in any case. A removed creature still has its `update` called.
- A release from `Pressed` keeps the amount, and `WaitForRelease` always
  holds 0 (`GameAction.Valid`).

After a `Goal` swaps the map in the middle of the player's update, the Java
code keeps moving the old player object. That object is no longer the
loaded map's player. The model writes the moved player back only while
`generation` is unchanged.

## Model

| member | source | states |
|---|---|---|
| JavaInt.Add32 | GameAction.java:75-78 | Java `int` addition: the exact sum when it fits, otherwise the sum shifted by 2^32 |
| JavaInt.Add64 | Animation.java:29-33 | Java `long` addition: the exact sum when it fits, otherwise the sum shifted by 2^64 |
| JavaInt.JavaRem | Animation.java:46-47 | Java's `%`: takes the dividend's sign, its magnitude is below the divisor's, and it agrees with Euclidean `%` on non-negative operands |
| JavaInt.JavaRemNegatedDividend | Animation.java:46-47 | Negating the dividend negates Java's remainder |
| JavaInt.JavaRemNegatedDivisor | Animation.java:46-47 | The divisor's sign does not change Java's remainder |
| GameActions.Step | GameAction.java:73-109 | The three state classes' transition table: only a release reaches `Released`; a press in `WaitForRelease` changes nothing; a press anywhere else gives `Pressed` with the amount increased; a release keeps the amount, except that leaving `WaitForRelease` clears it |
| GameActions.Apply | GameAction.java:40-46 | `press` and `release` hand the edge to the current state: name and behaviour are kept, a release always ends `Released`, a press while waiting is ignored, any other press gives `Pressed` with the amount increased, a release keeps the amount except that a release while waiting clears it, and the invariant is kept |
| GameActions.New | GameAction.java:12-20 | A constructed action keeps its name and behaviour, is `Released` with amount 0, and satisfies the invariant |
| GameActions.Reset | GameAction.java:26-29 | `reset` returns the action to exactly the state of a freshly constructed one |
| GameActions.Press | GameAction.java:40-42 | `press(n)` leaves a waiting action unchanged; otherwise the action is `Pressed` with the amount increased by `n` (wrapping), and this holds even for `n = 0` from `Released`; the invariant is kept |
| GameActions.Release | GameAction.java:44-46 | `release` always ends `Released`; from `Pressed` the amount is kept, from `WaitForRelease` it is cleared, and from `Released` nothing changes |
| GameActions.Tap | GameAction.java:31-34 | `tap` ends `Released` with one more in the amount, or with 0 if the action was waiting |
| GameActions.GetAmount | GameAction.java:52-63 | The read returns the amount held before the call. A zero amount changes nothing. Otherwise a `Released` action is cleared, a `DETECT_INITAL_PRESS_ONLY` action that is `Pressed` moves to `WaitForRelease` with 0, and a `NORMAL` action that is `Pressed` is untouched |
| GameActions.IsPressed | GameAction.java:48-50 | `isPressed` is true exactly when the amount is non-zero, with the same state effect as `getAmount` |
| GameActions.WaitingReadsZero | GameAction.java:98-102 | Any number of reads of a waiting action answer 0 each time and change nothing |
| GameActions.HeldReadsRepeat | GameAction.java:52-63 | A `NORMAL` action that is `Pressed` answers its amount on every read and is not changed |
| GameActions.DebounceLaw | GameAction.java:52-108 | An initial-press-only action pressed once is read as 1, then as 0 however often it is read; further presses are ignored; a release and a new press are read as 1 again |
| GameActions.ContinuousLaw | GameAction.java:52-63 | A `NORMAL` action pressed once is read as 1 on every read while held; after the release, it is read as 1 once and then as 0 |
| GameActions.Stacking | GameAction.java:86-90 | Presses stack while held: `press(2)` then `press(3)` is read as 5 |
| GameActions.TapReadsOnce | GameAction.java:31-34 | After `tap`, the next read answers 1 and the one after answers 0, for either behaviour |
| GameActions.Move | GameAction.java:65-66 | `move` has an empty body: the action comes back exactly as it was |
| Commands.Execute | KeyCommand.java:12-46 | Key and click commands have exactly the effect of `press(1)`; the move command leaves the action unchanged |
| Commands.ClickIsNotTap | KeyCommand.java:27-29 | A click adds the same amount as `tap` but leaves the action `Pressed`, where `tap` leaves it `Released` |
| Commands.TwoKeyCommands | KeyCommand.java:13-15 | Two key commands on a released action leave it `Pressed` with the amount increased by 2, wrapping at the `int` bounds |
| ActionFactory.CreateGameActionWithBehavior | src/com/TETOSOFT/input/GameActionFactory.java:9-11 | The two-argument factory gives exactly the action the constructor gives |
| ActionFactory.CreateGameAction | src/com/TETOSOFT/input/GameActionFactory.java:5-7 | The one-argument factory gives a `NORMAL` action with the given name, `Released` and holding 0 |
| ActionFactory.FirstReadIsNotPressed | src/com/TETOSOFT/input/GameActionFactory.java:9-11 | The first `isPressed` of a factory-made action is false and changes nothing |
| Animations.Empty | Animation.java:13-21 | A new animation has no frames, no duration, and clock and index at 0 |
| Animations.AddFrame | Animation.java:28-33 | `addFrame` appends exactly one frame, ending at the old total plus the duration, and adds the duration to the total (as a `long`) |
| Animations.AddFrameEndsAtTotal | Animation.java:28-33 | After `addFrame` the last frame ends at the total, whatever the sign of the duration |
| Animations.AddFrameKeepsWellTimed | Animation.java:28-33 | Adding frames with non-negative durations keeps end times non-negative and non-decreasing, with the last end time equal to the total |
| Animations.Start | Animation.java:35-40 | `start` resets clock and index, and keeps frames, total and the invariants |
| Animations.Clone | Animation.java:23-26 | `clone` has the same frames and total, with clock and index reset |
| Animations.CloneIsStart | Animation.java:17-26 | A clone equals the original restarted |
| Animations.FirstEndingAfter | Animation.java:51-58 | The frame scan finds the first frame from the start index whose end time is after the clock, or reports that none is |
| Animations.Update | Animation.java:43-60 | `update` leaves an animation with no frames alone. Frames with a zero total are a division by zero whenever the clock reaches the total. Otherwise the clock advances, or wraps with `%`; the scan restarts at 0 on a wrap and at the current frame otherwise; the new index is the first frame from there ending after the clock, and stays at the scan's start only when no frame from there does |
| Animations.UpdateKeepsClockInRange | Animation.java:44-49 | With a positive total and non-negative time that does not overflow, `update` succeeds and the clock stays in `[0, total)` |
| Animations.UpdateWithoutWrapNeverRewinds | Animation.java:51-58 | Without a wrap the frame index never decreases |
| Animations.ScanFindsFrame | Animation.java:51-58 | A clock below the total always finds a frame, because the last frame ends at the total |
| Animations.UpdateKeepsCovering | Animation.java:43-60 | After `update`, the current frame is the one whose time slot holds the clock |
| Animations.GetImage | Animation.java:62-69 | `getImage` is null exactly when there are no frames, and otherwise is the current frame's image |
| Animations.GetEndTime | Animation.java:71-74 | The end time is 0 without frames. With frames whose last one ends at the total, which `addFrame` always leaves, it is that frame's end time; no frame of a well-timed animation ends after it |
| Animations.EndTimeIsLastFrameEnd | Animation.java:71-74 | `getEndTime` is the last frame's end time whenever that frame ends at the total, which holds after any `addFrame`, negative durations included |
| PowerUps.CreatePowerUp | PowerUp.java:28-37 | A name equal to "Star", "Music" or "Goal" ignoring case gives that kind, carrying the given animation; any other name gives null |
| PowerUps.NamesAreExclusive | PowerUp.java:29-34 | No name matches two of the three names ignoring case, so the order of the tests does not matter |
| PowerUps.CharsMatchIffFoldsEqual | PowerUp.java:29 | Java's per-character case-insensitive test is equality of folded characters |
| PowerUps.EqualsIgnoreCaseIffFoldsEqual | PowerUp.java:29 | `equalsIgnoreCase` is equality of folded strings |
| PowerUps.FoldIsIdempotent | PowerUp.java:29-34 | Folding a name twice is folding it once, and the folded name equals the name ignoring case |
| PowerUps.CreateDependsOnlyOnFold | PowerUp.java:28-37 | Names with the same folded key give the same power-up |
| PowerUps.AcceptedSpellings | PowerUp.java:28-37 | Examples: any letter case and the non-ASCII letters Java folds onto `s` and `i` are accepted; "Stars" and the empty name are not |
| ScreenModes.DisplayModesMatch | ScreenManager.java:46-61 | Two modes match exactly when their sizes are equal, their depths are equal or one is multi-depth, and their rates are equal or one is unknown. A mode matches itself, and wildcards on both axes match any mode of the same size |
| ScreenModes.MatchIsSymmetric | ScreenManager.java:46-61 | Matching does not depend on argument order |
| ScreenModes.MatchIsNotTransitive | ScreenManager.java:50-54 | A multi-depth mode matches two modes that do not match each other |
| ScreenModes.FindFirstCompatibleMode | ScreenManager.java:30-40 | The result is null exactly when no requested mode is supported; otherwise it is the earliest supported requested mode, taken from the requested list |
| World.PixelsToTiles | GameEngine.java:130-133 | A pixel's tile is the one whose pixel range holds it |
| World.TileOfPixelIsUnique | GameEngine.java:130-133 | Only one tile's pixel range holds a given pixel |
| World.TilesToPixels | GameEngine.java:223-225 | A tile's first pixel, as the clamps use it, maps back to that tile |
| World.TilesRoundTrip | GameEngine.java:222-225 | A tile's first pixel lies in that tile, and the pixel before it lies in the tile before |
| World.PixelsToTilesMonotone | GameEngine.java:130-133 | Larger pixels lie in the same or a later tile |
| World.ColumnScan | GameEngine.java:136-141 | The inner loop finds the first blocking row of a column, or reports that the column is free |
| World.BoxScan | GameEngine.java:135-142 | The outer loop finds the first blocking tile in column-then-row order, or reports that the box is free |
| World.TileCollision | GameEngine.java:124-145 | The result is null exactly when no tile in the swept box is off the map sideways or occupied; otherwise it is such a tile and no earlier tile in scan order is one |
| World.IsCollision | GameEngine.java:147-168 | A sprite never collides with itself or with a creature that is not alive. Two non-empty boxes collide exactly when, besides that, they share a pixel |
| World.CollisionIsSymmetric | GameEngine.java:147-168 | Overlap is symmetric, a sprite never overlaps itself, and boxes that only touch do not overlap |
| World.SpriteCollision | GameEngine.java:170-179 | The result is the first sprite in order that collides, and null exactly when none does |
| World.DeadAreNeverFound | GameEngine.java:152-157 | The sprite search never answers a creature that is not alive |
| Engine.InitControls | GameEngine.java:61-73 | Moves are `NORMAL` and jump and exit are initial-press-only; `press(0)` leaves all four `Pressed` and holding 0 |
| Engine.NewGame | GameEngine.java:30-31 | A game starts with 0 stars, 6 lives and the first map |
| Engine.InitialJumpReportsOnce | GameEngine.java:66-72 | Because jump starts `Pressed`, the first key press stacks onto it and is still read exactly once |
| Engine.ApplyGravity | GameEngine.java:211-213 | Gravity is added to the vertical speed, scaled by the elapsed time, exactly when the creature does not fly; nothing else changes |
| Engine.MoveHorizontally | GameEngine.java:215-228 | With no tile in the way the sprite moves the full step. A blocking tile stops a rightward move against its left edge and a leftward move against its right edge, and a zero step stays put. `blocked` says whether a tile was hit; only `x` changes |
| Engine.MoveVertically | GameEngine.java:233-246 | The same rules on the `y` axis, from the already resolved `x` |
| Engine.RightwardClampLandsFree | GameEngine.java:215-228 | A rightward move that starts clear of tiles ends clear of tiles |
| Engine.SnapLandsFree | GameEngine.java:222-223 | Snapped against the first blocking column, a sprite from a free position covers only free swept columns |
| Engine.SnapColumns | GameEngine.java:222-223 | A sprite whose last column lies before the hit column, placed against the column's left edge, does not move left and ends in the column before |
| Engine.RightwardHitIsBeyond | GameEngine.java:124-145 | From a free position, the first tile a rightward sweep meets lies right of the sprite |
| Engine.FreeWithin | GameEngine.java:124-145 | A sprite whose tiles lie inside free swept columns is free |
| Engine.LeftwardClampCanEndInsideATile | GameEngine.java:224-225 | Example: a leftward move of more than a tile in one tick past a two-tile wall ends inside the nearer tile, because the scan meets the farther, leftmost column first |
| Engine.FallCanEndInsideATile | GameEngine.java:240-241 | Example: a two-tile-wide creature falling fast onto a step that is higher under its right half lands inside the step, because the scan takes the left column's tile first |
| Engine.HitCalls | GameEngine.java:215-246 | `collideHorizontal` is logged exactly when the horizontal move was blocked and `collideVertical` exactly when the vertical one was, in that order, and nothing else: one call per blocked axis |
| Engine.MoveCreature | GameEngine.java:210-251 | Gravity, then the horizontal move, then the vertical move from the resolved `x`. Only position and vertical speed change. `collideHorizontal` and `collideVertical` are called exactly when that axis was blocked, the horizontal one first, once each, and nothing else is called |
| Engine.RemoveAt | GameEngine.java:284 | Removing a sprite keeps the others in order |
| Engine.CollectStar | GameEngine.java:286-294 | One star is added, and the hundredth wraps to 0 with one more life; stars in `[0, 100)` stay there, and `stars + 100 * lives` grows by exactly one |
| Engine.CollectStars | GameEngine.java:286-294 | `k` stars keep `stars + 100 * lives` growing by exactly `k`, keep stars in `[0, 100)`, and add at most `k` lives |
| Engine.StarsWrapAtHundred | GameEngine.java:286-294 | From fewer than 100 stars, `k` stars leave `(stars + k) % 100` stars and add `(stars + k) / 100` lives |
| Engine.HundredStarsMakeALife | GameEngine.java:289-293 | 100 stars from none give one life and no stars |
| Engine.NinetyNineStarsMakeNoLife | GameEngine.java:289-293 | 99 stars from none give no life |
| Engine.AcquirePowerUp | GameEngine.java:282-302 | The power-up leaves the map. A star is counted, music changes no counter, and a goal loads the next map |
| Engine.CheckPlayerCollision | GameEngine.java:253-275 | A player that is not alive, or touches nothing, changes nothing. The first sprite touched decides: a power-up is acquired. A creature under a kill becomes `Dying`, and the player lands on top of it and jumps. Otherwise the player becomes `Dying` and loses one life, and `stop` is called exactly when no lives are left. A kill changes only the sprites and the calls, and a death only the lives and the calls |
| Engine.PlayerHorizontalPass | GameEngine.java:215-230 | A creature met after the horizontal move is never killed; the player dies and loses a life; the player ends at the move's `x` with its `y` untouched. A power-up touched is acquired. Touching nothing, or for a player that is not alive, the pass only moves the player and logs the horizontal hit |
| Engine.PlayerVerticalPass | GameEngine.java:233-249 | A creature met after the vertical move is killed exactly when the move took the player strictly down, and the player lives; otherwise the player dies and loses a life. A power-up touched is acquired. Touching nothing, or for a player that is not alive, the pass only moves the player and logs the vertical hit |
| Engine.PlayerMovesLikeACreature | GameEngine.java:210-250 | A player that is not alive, or touches no sprite after either move, ends exactly where `updateCreature` moves any creature, with the same collision calls and nothing else changed |
| Engine.PassesWithoutContact | GameEngine.java:210-250 | Without contact, or for a player that is not alive, the two passes leave the game with only the two axes' hits logged, and the player at the vertical move's result |
| Engine.PlayerPasses | GameEngine.java:210-250 | Gravity and the two passes: lives change by at most one, stars stay below 100, and unless a goal replaced the map the map's player is untouched and the moved player keeps its identity |
| Engine.UpdatePlayer | GameEngine.java:210-250 | Over the player's update, lives change by at most one and stars stay below 100. The game is what the two passes left. The moved player they produce is written back exactly when no goal replaced the map; otherwise the loaded map keeps its own player |
| Engine.CheckInput | GameEngine.java:86-105 | Exit is read first and calls `stop`. Only while the player is alive are the moves and jump read: both or neither move key gives speed 0, one gives its signed maximum speed, and a jump read calls `jump(false)`. Each action is left as its `isPressed` read leaves it; only the controls, the calls and the player's speed change |
| Engine.ExitStopsOnce | GameEngine.java:87-89 | For an exit action holding nothing, fresh or as `initInput` leaves it, one press of the exit key stops the game on the next tick only |
| Engine.Survivors | GameEngine.java:195-207 | The kept sprites are exactly the sprites that are not dead creatures, in their order |
| Engine.SurvivorsKeepOrder | GameEngine.java:195-207 | Filtering two runs of sprites one after the other keeps each run's survivors, the first run's first |
| Engine.Visit | GameEngine.java:198-204 | A kept creature is moved exactly as `updateCreature` moves it, and any other sprite is left alone with no call; identity, kind and life state are kept |
| Engine.UpdateSprites | GameEngine.java:195-207 | The loop's result is the survivors in order, each visited |
| Engine.UpdateSpritesCallsAreCollisions | GameEngine.java:195-207 | Every call the loop logs is an `update` or a `collideHorizontal`/`collideVertical` call on a creature it moved |
| Engine.LoopStepUpdatesFirst | GameEngine.java:195-207 | One step of the loop calls `update` on its own sprite, after that sprite's collision calls and before the rest of the loop's calls |
| Engine.SpriteLog | GameEngine.java:198-206 | One sprite's calls end with its `update`, and every other call comes from visiting it, which happens only when it is kept |
| Engine.LoopStepLogsSprite | GameEngine.java:195-207 | One step of the loop logs its sprite's calls ahead of the rest of the loop's |
| Engine.LoopLogsEverySprite | GameEngine.java:195-207 | The loop's calls are exactly its sprites' logs one after the other: each kept sprite's collision calls, then its `update` |
| Engine.LoopLogsEveryCollision | GameEngine.java:198-204 | No collision call is lost: each `collideHorizontal` or `collideVertical` a kept creature's move makes is among the loop's calls |
| Engine.LoopUpdatesEverySprite | GameEngine.java:195-207 | The loop calls `update` once on every sprite in order, removed dead creatures included |
| Engine.UpdateSpritesDropsTheDead | GameEngine.java:199-201 | After the loop no dead creature is left, and each sprite keeps the identity of the survivor at its place |
| Engine.Update | GameEngine.java:181-208 | A dead player only reloads the map. Otherwise the input is read, the player is updated and has its `update` called, and the map then loaded keeps exactly its survivors in order, each visited; no dead creature is left, lives changed by at most one, and stars stay below 100 |

## Left out

- Threads and the `synchronized` modifiers: everything is sequential.
- Floating-point physics: positions and speeds are whole pixels, and `GRAVITY` is the per-tick input `Env.gravity`. `Math.round` is the identity on whole pixels, and IEEE rounding is not modelled.
- The bodies of `Sprite`, `Creature` and `Player` are not part of this model. This covers `update`, `jump`, `collideHorizontal`, `collideVertical`, the side effects of `setState` and the timing from `Dying` to `Dead`. The `update`, `jump`, `collideHorizontal` and `collideVertical` calls are logged and their effects are not applied.
- `setState` calls are not logged: the model sets the sprite's life state directly, and its other effects are not modelled.
- `MapLoader`: `loadNextMap` and `reloadMap` are inputs. Two goals in one tick load the same next map.
- `init`, `stop`'s body, `main`, `draw`, and the `InputManager` key bindings of `initInput` are I/O.
- `ScreenManager` apart from `displayModesMatch` and `findFirstCompatibleMode`. The device's mode list is a parameter.
- `PowerUp.clone` uses reflection. Images are an opaque type parameter.
- The music power-up has no effect in the code.
- Null references: strings, arrays and maps are never null here.
- PowerUps.CreatePowerUp: Java's case mapping is modelled only for ASCII letters and the four other characters whose mapping reaches an ASCII letter. That is exact when comparing with the three ASCII names.
- Engine.CollectStar: the counters are unbounded integers, because reaching `int` overflow would take 2^31 pickups.
- Engine.Update: the star bound is stated for states with fewer than 100 stars. These are the only states the game reaches.
- Animations.UpdateKeepsClockInRange: the `long` clock is assumed not to overflow. `Update` itself models the wrap.
- World.IsCollision: the shared-pixel reading holds only for boxes with positive width and height. For an empty box the strict inequalities of the code can still report a collision.
- Engine.Visit: a sprite of the player's kind inside the map's sprite list would be moved like any other creature. `updateCreature` would also run `checkPlayerCollision` for it (GameEngine.java:229-231, 247-250). The model assumes the player is not in that list, since its sprite loop has no game state to hand to those checks.
- Engine.Update: the map's player is assumed to be of the player's kind. In Java another kind makes the casts at GameEngine.java:91 and 183 throw `ClassCastException`, and the model does not represent that exception.
- The tile size is a field of the map, because `TileMapDrawer` is not part of this model.
- Engine.RightwardClampLandsFree: only the rightward horizontal move is shown to end clear of tiles. Leftward and vertical moves can end inside a tile (`Engine.LeftwardClampCanEndInsideATile`, `Engine.FallCanEndInsideATile`) when one tick moves a sprite more than a tile.

=== FILE: action_factory.dfy ===
/** The factory the input layer uses to build actions. */
module ActionFactory {
  import opened JavaInt
  import opened GameActions

  /** The two-argument `createGameAction`: exactly the constructor. */
  function CreateGameActionWithBehavior(name: string, behavior: Int32): (a: GameAction)
    ensures a == New(name, behavior)
  {
    GameAction(name, behavior, Released, 0)
  }

  /** The one-argument `createGameAction`: a `NORMAL` action. */
  function CreateGameAction(name: string): (a: GameAction)
    ensures a.name == name && a.behavior == NORMAL
    ensures a.state == Released && a.amount == 0
  {
    CreateGameActionWithBehavior(name, NORMAL)
  }

  /** A factory-made action is not pressed on its first read, and that read
      changes nothing. */
  lemma FirstReadIsNotPressed(name: string, behavior: Int32)
    ensures IsPressed(CreateGameActionWithBehavior(name, behavior)) == (CreateGameActionWithBehavior(name, behavior), false)
    ensures IsPressed(CreateGameAction(name)) == (CreateGameAction(name), false)
  {
  }
}

=== FILE: animation.dfy ===
/** A looping animation: frames carry cumulative end times, the clock wraps
    modulo the total duration, and the shown frame is found by a forward
    scan. Images are opaque (`Img`); time is Java `long` milliseconds. */
module Animations {
  import opened JavaInt
  import opened Wrappers

  datatype Frame<Img> = Frame(image: Img, endTime: Int64)

  datatype Animation<Img> = Animation(frames: seq<Frame<Img>>, currFrameIndex: int, animTime: Int64, totalDuration: Int64)
  {
    /** The index names a frame (or is 0 with no frames), and an animation
        without frames has no duration. */
    predicate Valid() {
      if frames == [] then currFrameIndex == 0 && totalDuration == 0
      else 0 <= currFrameIndex < |frames|
    }

    /** Every frame was added with a non-negative duration: end times are
        non-negative, non-decreasing, and the last one is the total. */
    predicate WellTimed() {
      && (forall i, j :: 0 <= i <= j < |frames| ==> frames[i].endTime <= frames[j].endTime)
      && (forall i :: 0 <= i < |frames| ==> 0 <= frames[i].endTime)
      && EndsAtTotal()
    }

    /** The last frame ends at the total. `addFrame` keeps this whatever the
        durations, negative ones included. */
    predicate EndsAtTotal() {
      frames != [] ==> frames[|frames| - 1].endTime == totalDuration
    }

    /** The shown frame is the one whose time slot holds the clock: it ends
        after the clock and the frame before it does not. */
    predicate Covering() {
      && 0 <= currFrameIndex < |frames|
      && animTime < frames[currFrameIndex].endTime
      && (currFrameIndex > 0 ==> frames[currFrameIndex - 1].endTime <= animTime)
    }
  }

  /** `update` divides by a zero total duration when it has frames. */
  datatype AnimationError = ArithmeticException

  /** `new Animation()`. */
  function Empty<Img>(): (a: Animation<Img>)
    ensures a.frames == [] && a.totalDuration == 0
    ensures a.animTime == 0 && a.currFrameIndex == 0
    ensures a.Valid() && a.WellTimed() && a.EndsAtTotal()
  {
    Animation([], 0, 0, 0)
  }

  /** `addFrame(image, duration)`: one frame ending at the old total plus
      `duration`, and the total grows by `duration` (as a `long`). */
  function AddFrame<Img>(a: Animation<Img>, image: Img, duration: Int64): (r: Animation<Img>)
    requires a.Valid()
    ensures r.frames == a.frames + [Frame(image, Add64(a.totalDuration, duration))]
    ensures r.totalDuration == Add64(a.totalDuration, duration)
    ensures r.animTime == a.animTime
    ensures a.frames != [] ==> r.currFrameIndex == a.currFrameIndex
    ensures r.Valid()
  {
    var total := Add64(a.totalDuration, duration);
    a.(frames := a.frames + [Frame(image, total)], totalDuration := total)
  }

  /** `start()`: clock and frame index back to zero. */
  function Start<Img>(a: Animation<Img>): (r: Animation<Img>)
    ensures r.animTime == 0 && r.currFrameIndex == 0
    ensures r.frames == a.frames && r.totalDuration == a.totalDuration
    ensures a.Valid() ==> r.Valid()
    ensures a.WellTimed() ==> r.WellTimed()
    ensures a.EndsAtTotal() ==> r.EndsAtTotal()
  {
    a.(animTime := 0, currFrameIndex := 0)
  }

  /** `clone()`: a new animation over a copy of the frame list with the same
      total, started from the beginning. */
  function Clone<Img>(a: Animation<Img>): (r: Animation<Img>)
    ensures r.frames == a.frames && r.totalDuration == a.totalDuration
    ensures r.animTime == 0 && r.currFrameIndex == 0
  {
    Animation(a.frames, 0, 0, a.totalDuration)
  }

  /** The scan in `update`: the first index from `from` on whose frame ends
      after `t`, if there is one. */
  function FirstEndingAfter<Img>(frames: seq<Frame<Img>>, from: nat, t: int): (r: Option<nat>)
    ensures r.Some? ==> from <= r.value < |frames| && t < frames[r.value].endTime
    ensures r.Some? ==> forall k :: from <= k < r.value ==> frames[k].endTime <= t
    ensures r.None? ==> forall k :: from <= k < |frames| ==> frames[k].endTime <= t
    decreases |frames| - from
  {
    if from >= |frames| then None
    else if frames[from].endTime > t then Some(from)
    else FirstEndingAfter(frames, from + 1, t)
  }

  /** `update(elapsedTime)`. The clock advances (as a `long`); once it reaches
      the total it wraps with Java's `%` and the scan restarts at frame 0,
      otherwise the scan starts at the current frame. If no frame ends after
      the clock the index stays at the scan's start. */
  function Update<Img>(a: Animation<Img>, elapsed: Int64): (r: Result<Animation<Img>, AnimationError>)
    requires a.Valid()
    ensures r.Failure? <==> a.frames != [] && a.totalDuration == 0 && Add64(a.animTime, elapsed) >= 0
    ensures a.frames == [] ==> r == Success(a)
    ensures r.Success? ==> r.value.frames == a.frames && r.value.totalDuration == a.totalDuration
    ensures r.Success? ==> r.value.Valid()
    ensures r.Success? && a.frames != [] ==>
              var t := Add64(a.animTime, elapsed);
              var wrapped := t >= a.totalDuration;
              var start := if wrapped then 0 else a.currFrameIndex;
              var idx := r.value.currFrameIndex;
              && (wrapped ==> r.value.animTime == JavaRem(t, a.totalDuration))
              && (!wrapped ==> r.value.animTime == t)
              && start <= idx
              && (forall k :: start <= k < idx ==> a.frames[k].endTime <= r.value.animTime)
              && (idx == start || r.value.animTime < a.frames[idx].endTime)
              && ((exists k :: start <= k < |a.frames| && r.value.animTime < a.frames[k].endTime)
                  ==> r.value.animTime < a.frames[idx].endTime)
  {
    if a.frames == [] then Success(a)
    else
      var t := Add64(a.animTime, elapsed);
      if t >= a.totalDuration && a.totalDuration == 0 then Failure(ArithmeticException)
      else
        var time := if t >= a.totalDuration then JavaRem(t, a.totalDuration) else t;
        var start := if t >= a.totalDuration then 0 else a.currFrameIndex;
        var idx := match FirstEndingAfter(a.frames, start, time)
                   case Some(k) => k
                   case None => start;
        Success(a.(animTime := time, currFrameIndex := idx))
  }

  /** `getImage()`: no image without frames, else the current frame's. */
  function GetImage<Img>(a: Animation<Img>): (r: Option<Img>)
    requires a.Valid()
    ensures r.None? <==> a.frames == []
    ensures r.Some? ==> r.value == a.frames[a.currFrameIndex].image
  {
    if a.frames == [] then None else Some(a.frames[a.currFrameIndex].image)
  }

  /** `getEndTime()`: the total duration, which no frame ends after; an
      animation without frames has none. */
  function GetEndTime<Img>(a: Animation<Img>): (r: Int64)
    ensures a.Valid() && a.frames == [] ==> r == 0
    ensures a.WellTimed() ==> forall i :: 0 <= i < |a.frames| ==> a.frames[i].endTime <= r
    ensures a.EndsAtTotal() && a.frames != [] ==> r == a.frames[|a.frames| - 1].endTime
  {
    a.totalDuration
  }

  /** The end time reported is the last frame's end time. */
  lemma EndTimeIsLastFrameEnd<Img>(a: Animation<Img>)
    requires a.EndsAtTotal() && a.frames != []
    ensures GetEndTime(a) == a.frames[|a.frames| - 1].endTime
  {
  }

  /** `addFrame` makes the new last frame end at the new total, for any
      duration, so every animation built by the public constructor and
      `addFrame` ends at its total. */
  lemma AddFrameEndsAtTotal<Img>(a: Animation<Img>, image: Img, duration: Int64)
    requires a.Valid()
    ensures AddFrame(a, image, duration).EndsAtTotal()
  {
  }

  /** Adding a frame with a non-negative duration, when the total does not
      overflow, keeps end times cumulative. */
  lemma AddFrameKeepsWellTimed<Img>(a: Animation<Img>, image: Img, duration: Int64)
    requires a.Valid() && a.WellTimed()
    requires 0 <= duration && a.totalDuration + duration <= LONG_MAX
    ensures AddFrame(a, image, duration).WellTimed()
  {
    var r := AddFrame(a, image, duration);
    assert r.frames[|r.frames| - 1].endTime == a.totalDuration + duration;
    if a.frames != [] {
      assert a.frames[|a.frames| - 1].endTime == a.totalDuration;
    }
    forall i, j | 0 <= i <= j < |r.frames|
      ensures r.frames[i].endTime <= r.frames[j].endTime
    {
      if j == |r.frames| - 1 && i < j {
        assert r.frames[i] == a.frames[i];
        assert a.frames[i].endTime <= a.frames[|a.frames| - 1].endTime;
      }
    }
  }

  /** `clone()` is a started copy. */
  lemma CloneIsStart<Img>(a: Animation<Img>)
    ensures Clone(a) == Start(a)
  {
  }

  /** With a positive total, a clock in range and a non-negative elapsed time
      that does not overflow, `update` succeeds and the clock stays in
      `[0, total)`. */
  lemma UpdateKeepsClockInRange<Img>(a: Animation<Img>, elapsed: Int64)
    requires a.Valid() && a.frames != [] && a.totalDuration > 0
    requires 0 <= a.animTime && 0 <= elapsed && a.animTime + elapsed <= LONG_MAX
    ensures Update(a, elapsed).Success?
    ensures 0 <= Update(a, elapsed).value.animTime < a.totalDuration
  {
  }

  /** Without a wrap the frame index never moves backwards. */
  lemma UpdateWithoutWrapNeverRewinds<Img>(a: Animation<Img>, elapsed: Int64)
    requires a.Valid() && a.frames != []
    requires Add64(a.animTime, elapsed) < a.totalDuration
    ensures Update(a, elapsed).Success?
    ensures a.currFrameIndex <= Update(a, elapsed).value.currFrameIndex
  {
  }

  /** The scan finds a frame whenever the clock is below the total, because
      the last frame ends at the total. */
  lemma ScanFindsFrame<Img>(frames: seq<Frame<Img>>, from: nat, t: int, total: int)
    requires frames != [] && from < |frames|
    requires frames[|frames| - 1].endTime == total && t < total
    ensures FirstEndingAfter(frames, from, t).Some?
  {
  }

  /** `update` keeps the shown frame the one whose slot holds the clock: true
      after every wrap, and kept from one update to the next while the clock
      only moves forward within the total. */
  lemma UpdateKeepsCovering<Img>(a: Animation<Img>, elapsed: Int64)
    requires a.Valid() && a.WellTimed() && a.frames != [] && a.totalDuration > 0
    requires 0 <= a.animTime && 0 <= elapsed && a.animTime + elapsed <= LONG_MAX
    requires a.animTime < a.totalDuration ==> a.Covering()
    ensures Update(a, elapsed).Success?
    ensures Update(a, elapsed).value.Covering()
  {
    UpdateKeepsClockInRange(a, elapsed);
    var r := Update(a, elapsed).value;
    var t := a.animTime + elapsed;
    var start := if t >= a.totalDuration then 0 else a.currFrameIndex;
    ScanFindsFrame(a.frames, start, r.animTime, a.totalDuration);
    var k := FirstEndingAfter(a.frames, start, r.animTime).value;
    assert r.currFrameIndex == k;
    if k > 0 {
      if k > start {
        assert a.frames[k - 1].endTime <= r.animTime;
      } else {
        assert t < a.totalDuration && k == a.currFrameIndex;
        assert a.frames[k - 1].endTime <= a.animTime <= r.animTime;
      }
    }
  }
}

=== FILE: commands.dfy ===
/** The input commands: each forwards one input event to the action it was
    built around. A command's effect is a new value of that action. */
module Commands {
  import opened JavaInt
  import opened GameActions

  datatype Command =
    | KeyCommand
    | MouseClickCommand
    | MouseMoveCommand(dx: Int32, dy: Int32)

  /** `execute()`: key and click commands call `press()`, the move command
      calls the action's empty `move`. */
  function Execute(c: Command, a: GameAction): (r: GameAction)
    ensures c.MouseMoveCommand? ==> r == a
    ensures !c.MouseMoveCommand? && a.state != WaitForRelease ==> r.state == Pressed && r.amount == Add32(a.amount, 1)
    ensures !c.MouseMoveCommand? && a.state == WaitForRelease ==> r == a
    ensures r.name == a.name && r.behavior == a.behavior
  {
    match c
    case KeyCommand => Press(a, 1)
    case MouseClickCommand => Press(a, 1)
    case MouseMoveCommand(dx, dy) => Move(a, dx, dy)
  }

  /** A click presses without releasing: unlike `tap()`, it leaves the action
      held. */
  lemma ClickIsNotTap(a: GameAction)
    requires a.state != WaitForRelease
    ensures Execute(MouseClickCommand, a).state == Pressed
    ensures Tap(a).state == Released
    ensures Execute(MouseClickCommand, a).amount == Tap(a).amount
  {
  }

  /** Two key commands on a released action leave it held with two more in
      its amount (with `int` wrap-around). */
  lemma {:induction false} TwoKeyCommands(a: GameAction)
    requires a.state == Released
    ensures var r := Execute(KeyCommand, Execute(KeyCommand, a));
            r.state == Pressed && r.amount == Add32(a.amount, 2)
  {
    var once := Execute(KeyCommand, a);
    assert once.amount == Add32(a.amount, 1);
    var twice := Execute(KeyCommand, once);
    assert twice.amount == Add32(Add32(a.amount, 1), 1);
    if a.amount == INT_MAX {
      assert once.amount == INT_MIN;
    } else if a.amount == INT_MAX - 1 {
      assert twice.amount == INT_MIN;
    }
  }
}

=== FILE: engine.dfy ===
/** One tick of the game: read the input actions, move the player and every
    creature against the tiles one axis at a time, resolve the player's
    contacts with creatures and power-ups, and drop dead creatures.

    Collaborators whose code is not part of this model (the sprites'
    `collideHorizontal`, `collideVertical`, `jump` and `update`, and the
    loop's `stop`) are recorded, in call order, in `Game.calls`; their
    effects are not applied. The map loader is an input: `Env.nextMap` is what
    `loadNextMap` answers and `Env.reloadedMap` what `reloadMap` answers. */
module Engine {
  import opened Wrappers
  import opened JavaInt
  import opened GameActions
  import opened World
  import PowerUps

  const INITIAL_LIVES: int := 6
  const STARS_PER_LIFE: int := 100

  datatype Call =
    | CollideHorizontal(id: nat)
    | CollideVertical(id: nat)
    | Jump(forced: bool)
    | SpriteUpdate(id: nat)
    | Stop

  /** The four actions the engine reads each tick. */
  datatype Controls = Controls(moveLeft: GameAction, moveRight: GameAction, jump: GameAction, exit: GameAction)

  /** The engine's state. `generation` counts map loads and stands for the
      identity of the `map` object. */
  datatype Game = Game(
    tileMap: TileMap,
    generation: nat,
    controls: Controls,
    collectedStars: int,
    numLives: int,
    calls: seq<Call>)

  /** Per-tick inputs: elapsed milliseconds, the gravity step per
      millisecond, and what the map loader answers. */
  datatype Env = Env(elapsed: int, gravity: int, nextMap: TileMap, reloadedMap: TileMap)

  /** The actions as `initInput` leaves them: built by the constructor and
      put in the pressed state by `press(0)`. */
  function InitControls(): (c: Controls)
    ensures c.moveLeft.behavior == NORMAL && c.moveRight.behavior == NORMAL
    ensures c.jump.behavior == DETECT_INITAL_PRESS_ONLY && c.exit.behavior == DETECT_INITAL_PRESS_ONLY
    ensures c.moveLeft.state == Pressed && c.moveLeft.amount == 0
    ensures c.moveRight.state == Pressed && c.moveRight.amount == 0
    ensures c.jump.state == Pressed && c.jump.amount == 0
    ensures c.exit.state == Pressed && c.exit.amount == 0
  {
    Controls(
      Press(New("moveLeft", NORMAL), 0),
      Press(New("moveRight", NORMAL), 0),
      Press(New("jump", DETECT_INITAL_PRESS_ONLY), 0),
      Press(New("exit", DETECT_INITAL_PRESS_ONLY), 0))
  }

  /** The engine after `init` has loaded its first map. */
  function NewGame(first: TileMap): (g: Game)
    ensures g.collectedStars == 0 && g.numLives == INITIAL_LIVES
    ensures g.tileMap == first && g.calls == [] && g.controls == InitControls()
  {
    Game(first, 0, InitControls(), 0, INITIAL_LIVES, [])
  }

  /** Because `initInput` leaves the edge-triggered actions pressed with
      nothing held, the first key press only stacks onto them, and the
      debounce still reports it exactly once. */
  lemma InitialJumpReportsOnce()
    ensures var j := Press(InitControls().jump, 1);
            j.state == Pressed && GetAmount(j).1 == 1 && GetAmount(GetAmount(j).0).1 == 0
  {
  }

  // ---------------------------------------------------------------------
  // Movement against the tiles

  /** Gravity is added to the vertical speed unless the creature flies. */
  function ApplyGravity(c: Sprite, env: Env): (r: Sprite)
    ensures c.flying ==> r == c
    ensures !c.flying ==> r == c.(vy := r.vy) && r.vy - c.vy == env.gravity * env.elapsed
  {
    if c.flying then c else c.(vy := c.vy + env.gravity * env.elapsed)
  }

  /** A move along one axis and whether a tile stopped it. */
  datatype AxisMove = AxisMove(sprite: Sprite, blocked: bool)

  /** The horizontal half of `updateCreature`: move by `vx * elapsed`
      unless the sweep finds a tile; then snap against the tile's left edge
      when moving right, its right edge when moving left, and stay put with
      no horizontal speed. */
  function MoveHorizontally(m: TileMap, c: Sprite, elapsed: int): (r: AxisMove)
    ensures r.sprite == c.(x := r.sprite.x)
    ensures var hit := TileCollision(m, c, c.x + c.vx * elapsed, c.y);
            && (r.blocked <==> hit.Some?)
            && (hit.None? ==> r.sprite.x == c.x + c.vx * elapsed)
            && (hit.Some? && c.vx > 0 ==> r.sprite.x == TilesToPixels(hit.value.x, m.tileSize) - c.width)
            && (hit.Some? && c.vx < 0 ==> r.sprite.x == TilesToPixels(hit.value.x + 1, m.tileSize))
            && (hit.Some? && c.vx == 0 ==> r.sprite.x == c.x)
  {
    var newX := c.x + c.vx * elapsed;
    match TileCollision(m, c, newX, c.y)
    case None => AxisMove(c.(x := newX), false)
    case Some(tile) =>
      if c.vx > 0 then AxisMove(c.(x := TilesToPixels(tile.x, m.tileSize) - c.width), true)
      else if c.vx < 0 then AxisMove(c.(x := TilesToPixels(tile.x + 1, m.tileSize)), true)
      else AxisMove(c, true)
  }

  /** The vertical half, from the already resolved `x`: snap onto a tile's
      top edge when falling and under its bottom edge when rising. */
  function MoveVertically(m: TileMap, c: Sprite, elapsed: int): (r: AxisMove)
    ensures r.sprite == c.(y := r.sprite.y)
    ensures var hit := TileCollision(m, c, c.x, c.y + c.vy * elapsed);
            && (r.blocked <==> hit.Some?)
            && (hit.None? ==> r.sprite.y == c.y + c.vy * elapsed)
            && (hit.Some? && c.vy > 0 ==> r.sprite.y == TilesToPixels(hit.value.y, m.tileSize) - c.height)
            && (hit.Some? && c.vy < 0 ==> r.sprite.y == TilesToPixels(hit.value.y + 1, m.tileSize))
            && (hit.Some? && c.vy == 0 ==> r.sprite.y == c.y)
  {
    var newY := c.y + c.vy * elapsed;
    match TileCollision(m, c, c.x, newY)
    case None => AxisMove(c.(y := newY), false)
    case Some(tile) =>
      if c.vy > 0 then AxisMove(c.(y := TilesToPixels(tile.y, m.tileSize) - c.height), true)
      else if c.vy < 0 then AxisMove(c.(y := TilesToPixels(tile.y + 1, m.tileSize)), true)
      else AxisMove(c, true)
  }

  /** A rightward move that starts clear of tiles ends clear of tiles: the
      first blocking column the sweep meets lies beyond the sprite, so
      snapping against its left edge keeps the sprite in swept, free columns. */
  lemma RightwardClampLandsFree(m: TileMap, c: Sprite, elapsed: int)
    requires c.width >= 1 && c.height >= 1 && c.vx > 0 && elapsed >= 0
    requires Free(m, c)
    ensures Free(m, MoveHorizontally(m, c, elapsed).sprite)
  {
    var newX := c.x + c.vx * elapsed;
    assert c.x <= newX by {
      assert c.vx * elapsed >= 0;
    }
    var r := MoveHorizontally(m, c, elapsed).sprite;
    match TileCollision(m, c, newX, c.y)
    case None =>
      PixelsToTilesMonotone(c.x, newX, m.tileSize);
      FreeWithin(m, r, SweepBox(m, c, newX, c.y), SweepBox(m, c, newX, c.y).toX);
    case Some(t) =>
      SnapLandsFree(m, c, newX, t, r);
  }

  /** The blocked case: snapped against the left edge of the first blocking
      column, the sprite covers only swept columns before it. */
  lemma SnapLandsFree(m: TileMap, c: Sprite, newX: int, t: Point, r: Sprite)
    requires c.width >= 1 && c.height >= 1
    requires Free(m, c) && c.x <= newX
    requires TileCollision(m, c, newX, c.y) == Some(t)
    requires r == c.(x := TilesToPixels(t.x, m.tileSize) - c.width)
    ensures Free(m, r)
  {
    var sweep := SweepBox(m, c, newX, c.y);
    RightwardHitIsBeyond(m, c, newX, t);
    SnapColumns(c.x, c.width, t.x, m.tileSize);
    assert sweep.Contains(t.x, t.y);
    forall a, b | sweep.Contains(a, b) && a <= t.x - 1
      ensures !Blocks(m, a, b)
    {
      assert ScansBefore(a, b, t);
    }
    FreeWithin(m, r, sweep, t.x - 1);
  }

  /** The arithmetic of the snap: a sprite `w` pixels wide whose last column
      lies before column `tx`, placed `w` pixels before the column's first
      pixel, moves right (or stays) and ends in the column before `tx`. */
  lemma SnapColumns(x: int, w: int, tx: int, size: TileSize)
    requires w >= 1 && PixelsToTiles(x + w - 1, size) < tx
    ensures x <= TilesToPixels(tx, size) - w
    ensures PixelsToTiles(x, size) <= PixelsToTiles(TilesToPixels(tx, size) - w, size)
    ensures PixelsToTiles(TilesToPixels(tx, size) - w + w - 1, size) == tx - 1
  {
    var last := PixelsToTiles(x + w - 1, size);
    MulMonotone(last + 1, tx, size);
    assert (last + 1) * size == last * size + size;
    PixelsToTilesMonotone(x, TilesToPixels(tx, size) - w, size);
    TilesRoundTrip(tx, size);
  }

  /** A sprite is free when its own tiles lie in the rows of `box` and in its
      columns up to `lastX`, all of them free. */
  lemma FreeWithin(m: TileMap, s: Sprite, box: Box, lastX: int)
    requires var own := SweepBox(m, s, s.x, s.y);
             && box.fromX <= own.fromX && own.toX <= lastX <= box.toX
             && own.fromY == box.fromY && own.toY == box.toY
    requires forall a, b :: box.Contains(a, b) && a <= lastX ==> !Blocks(m, a, b)
    ensures Free(m, s)
  {
    var own := SweepBox(m, s, s.x, s.y);
    forall a, b | own.Contains(a, b)
      ensures !Blocks(m, a, b)
    {
      assert box.Contains(a, b);
    }
  }

  /** The first tile a rightward sweep from a free position meets lies to
      the right of the sprite's own columns. */
  lemma RightwardHitIsBeyond(m: TileMap, c: Sprite, newX: int, t: Point)
    requires Free(m, c) && c.x <= newX
    requires TileCollision(m, c, newX, c.y) == Some(t)
    ensures PixelsToTiles(c.x + c.width - 1, m.tileSize) < t.x
  {
    var start := SweepBox(m, c, c.x, c.y);
    var sweep := SweepBox(m, c, newX, c.y);
    assert sweep.Contains(t.x, t.y) && Blocks(m, t.x, t.y);
    if t.x <= start.toX {
      assert start.Contains(t.x, t.y);
    }
  }

  /** Leftward the sweep stops at the LEFTMOST blocking column, not the
      nearest one: a creature moving more than a tile in one tick past a
      two-tile wall snaps against the far tile's right edge and ends inside
      the near one. */
  lemma LeftwardClampCanEndInsideATile()
    ensures var c := Sprite(0, CreatureSprite, 256, 0, -4, 0, 64, 64, false, 4, Alive);
            var m := TileMap(10, {Point(1, 0), Point(2, 0)}, 64, [], c);
            var r := MoveHorizontally(m, c, 50).sprite;
            Free(m, c) && r.x == 128 && !Free(m, r)
  {
    var c := Sprite(0, CreatureSprite, 256, 0, -4, 0, 64, 64, false, 4, Alive);
    var m := TileMap(10, {Point(1, 0), Point(2, 0)}, 64, [], c);
    assert ColumnScan(m, 0, 0, 0) == None;
    assert ColumnScan(m, 1, 0, 0) == Some(0);
    assert TileCollision(m, c, 56, 0) == Some(Point(1, 0));
    var r := MoveHorizontally(m, c, 50).sprite;
    assert ColumnScan(m, 2, 0, 0) == Some(0);
    assert TileCollision(m, r, r.x, r.y) == Some(Point(2, 0));
  }

  /** Falling, the sweep takes the first blocking row of the LEFTMOST column
      that has one, not the highest: a creature two tiles wide falling fast
      onto a step that is higher under its right half lands inside the step. */
  lemma FallCanEndInsideATile()
    ensures var c := Sprite(0, CreatureSprite, 0, 0, 0, 10, 128, 64, false, 4, Alive);
            var m := TileMap(10, {Point(0, 5), Point(1, 4)}, 64, [], c);
            var r := MoveVertically(m, c, 40).sprite;
            Free(m, c) && r.y == 256 && !Free(m, r)
  {
    var c := Sprite(0, CreatureSprite, 0, 0, 0, 10, 128, 64, false, 4, Alive);
    var m := TileMap(10, {Point(0, 5), Point(1, 4)}, 64, [], c);
    assert ColumnScan(m, 0, 0, 0) == None;
    assert ColumnScan(m, 1, 0, 0) == None;
    assert ColumnScan(m, 0, 0, 7) == Some(5);
    assert TileCollision(m, c, 0, 400) == Some(Point(0, 5));
    var r := MoveVertically(m, c, 40).sprite;
    assert ColumnScan(m, 0, 4, 4) == None;
    assert ColumnScan(m, 1, 4, 4) == Some(4);
    assert TileCollision(m, r, r.x, r.y) == Some(Point(1, 4));
  }

  /** The collaborator calls a blocked move makes. */
  function HitCalls(id: nat, h: AxisMove, v: AxisMove): (r: seq<Call>)
    ensures CollideHorizontal(id) in r <==> h.blocked
    ensures CollideVertical(id) in r <==> v.blocked
    ensures forall call :: call in r ==> call == CollideHorizontal(id) || call == CollideVertical(id)
    ensures h.blocked && v.blocked ==> r == [CollideHorizontal(id), CollideVertical(id)]
    ensures |r| == (if h.blocked then 1 else 0) + (if v.blocked then 1 else 0)
  {
    (if h.blocked then [CollideHorizontal(id)] else []) + (if v.blocked then [CollideVertical(id)] else [])
  }

  /** `updateCreature` for a creature other than the player: gravity, then
      the horizontal move, then the vertical move from the resolved `x`.
      Only position and vertical speed change, and `collideHorizontal` /
      `collideVertical` are called exactly when that axis was blocked. */
  function MoveCreature(m: TileMap, c: Sprite, env: Env): (r: (Sprite, seq<Call>))
    ensures r.0 == c.(x := r.0.x, y := r.0.y, vy := r.0.vy)
    ensures r.0.vy == ApplyGravity(c, env).vy
    ensures var h := MoveHorizontally(m, ApplyGravity(c, env), env.elapsed);
            var v := MoveVertically(m, h.sprite, env.elapsed);
            && r.0.x == h.sprite.x && r.0.y == v.sprite.y
            && (CollideHorizontal(c.id) in r.1 <==> h.blocked)
            && (CollideVertical(c.id) in r.1 <==> v.blocked)
            && r.1 == HitCalls(c.id, h, v)
    ensures forall call :: call in r.1 ==> call == CollideHorizontal(c.id) || call == CollideVertical(c.id)
  {
    var f := ApplyGravity(c, env);
    var h := MoveHorizontally(m, f, env.elapsed);
    var v := MoveVertically(m, h.sprite, env.elapsed);
    (v.sprite, HitCalls(c.id, h, v))
  }

  // ---------------------------------------------------------------------
  // Power-ups and the player's contacts

  /** `seq` minus the element at `i` (`map.removeSprite`). */
  function RemoveAt<T>(s: seq<T>, i: nat): (r: seq<T>)
    requires i < |s|
    ensures |r| == |s| - 1
    ensures forall k :: 0 <= k < i ==> r[k] == s[k]
    ensures forall k :: i <= k < |r| ==> r[k] == s[k + 1]
  {
    s[..i] + s[i + 1..]
  }

  /** One star more; the hundredth star turns into a life. */
  function CollectStar(stars: int, lives: int): (r: (int, int))
    ensures 0 <= stars < STARS_PER_LIFE ==> 0 <= r.0 < STARS_PER_LIFE
    ensures r.0 + STARS_PER_LIFE * r.1 == stars + 1 + STARS_PER_LIFE * lives
    ensures r.1 == lives || r.1 == lives + 1
  {
    var s := stars + 1;
    if s == STARS_PER_LIFE then (0, lives + 1) else (s, lives)
  }

  /** `k` stars collected one after another. */
  function CollectStars(stars: int, lives: int, k: nat): (r: (int, int))
    ensures 0 <= stars < STARS_PER_LIFE ==> 0 <= r.0 < STARS_PER_LIFE
    ensures r.0 + STARS_PER_LIFE * r.1 == stars + k + STARS_PER_LIFE * lives
    ensures lives <= r.1 <= lives + k
    decreases k
  {
    if k == 0 then (stars, lives)
    else
      var (s, l) := CollectStar(stars, lives);
      CollectStars(s, l, k - 1)
  }

  /** From `stars` in `[0, 100)`, `k` stars leave `(stars + k) % 100` stars and
      add one life per hundred. */
  lemma {:induction false} StarsWrapAtHundred(stars: int, lives: int, k: nat)
    requires 0 <= stars < STARS_PER_LIFE
    ensures CollectStars(stars, lives, k) == ((stars + k) % STARS_PER_LIFE, lives + (stars + k) / STARS_PER_LIFE)
    decreases k
  {
    if k > 0 {
      var (s, l) := CollectStar(stars, lives);
      StarsWrapAtHundred(s, l, k - 1);
      if stars + 1 == STARS_PER_LIFE {
        assert (s, l) == (0, lives + 1);
        assert (stars + k) % STARS_PER_LIFE == (k - 1) % STARS_PER_LIFE;
        assert (stars + k) / STARS_PER_LIFE == 1 + (k - 1) / STARS_PER_LIFE;
      } else {
        assert (s, l) == (stars + 1, lives);
      }
    }
  }

  /** Exactly 100 stars from none give one life and no stars. */
  lemma HundredStarsMakeALife(lives: int)
    ensures CollectStars(0, lives, 100) == (0, lives + 1)
  {
    StarsWrapAtHundred(0, lives, 100);
    assert (0 + 100) % STARS_PER_LIFE == 0 && (0 + 100) / STARS_PER_LIFE == 1;
  }

  /** 99 stars from none give no life. */
  lemma NinetyNineStarsMakeNoLife(lives: int)
    ensures CollectStars(0, lives, 99) == (99, lives)
  {
    StarsWrapAtHundred(0, lives, 99);
    assert (0 + 99) % STARS_PER_LIFE == 99 && (0 + 99) / STARS_PER_LIFE == 0;
  }

  /** `acquirePowerUp`: the power-up leaves the map; a star is counted, music
      changes nothing here, and a goal loads the next map. */
  function AcquirePowerUp(g: Game, i: nat, env: Env): (r: Game)
    requires i < |g.tileMap.sprites| && g.tileMap.sprites[i].kind.PowerUpSprite?
    ensures r.calls == g.calls && r.controls == g.controls
    ensures var kind := g.tileMap.sprites[i].kind.item;
            var cleared := g.tileMap.(sprites := RemoveAt(g.tileMap.sprites, i));
            && (kind != PowerUps.Goal ==> r.tileMap == cleared && r.generation == g.generation)
            && (kind == PowerUps.Star ==> (r.collectedStars, r.numLives) == CollectStar(g.collectedStars, g.numLives))
            && (kind != PowerUps.Star ==> r.collectedStars == g.collectedStars && r.numLives == g.numLives)
            && (kind == PowerUps.Goal ==> r.tileMap == env.nextMap && r.generation == g.generation + 1)
  {
    var g1 := g.(tileMap := g.tileMap.(sprites := RemoveAt(g.tileMap.sprites, i)));
    match g.tileMap.sprites[i].kind.item
    case Star =>
      var (stars, lives) := CollectStar(g.collectedStars, g.numLives);
      g1.(collectedStars := stars, numLives := lives)
    case Music => g1
    case Goal => g1.(tileMap := env.nextMap, generation := g.generation + 1)
  }

  /** `checkPlayerCollision(player, canKill)`, with the player object passed
      along since it may belong to a map that has since been replaced.
      Nothing happens to a player that is not alive or touches nothing. The
      first sprite touched decides: a power-up is acquired; a creature dies
      under a player allowed to kill it, the player landing on top of it;
      otherwise the player dies, loses a life, and the game stops once no
      lives are left. */
  function CheckPlayerCollision(g: Game, p: Sprite, canKill: bool, env: Env): (r: (Game, Sprite))
    ensures !p.IsAlive() ==> r == (g, p)
    ensures SpriteCollision(p, g.tileMap.sprites).None? ==> r == (g, p)
    ensures var hit := SpriteCollision(p, g.tileMap.sprites);
            hit.Some? && p.IsAlive() && g.tileMap.sprites[hit.value].kind.PowerUpSprite?
            ==> r == (AcquirePowerUp(g, hit.value, env), p)
    ensures var hit := SpriteCollision(p, g.tileMap.sprites);
            hit.Some? && p.IsAlive() && g.tileMap.sprites[hit.value].IsCreature() && canKill
            ==> var foe := g.tileMap.sprites[hit.value];
                && r.0.tileMap.sprites == g.tileMap.sprites[hit.value := foe.(state := Dying)]
                && r.1 == p.(y := foe.y - p.height)
                && r.0.numLives == g.numLives && r.0.collectedStars == g.collectedStars
                && r.0.calls == g.calls + [Jump(true)]
                && r.0 == g.(tileMap := g.tileMap.(sprites := r.0.tileMap.sprites), calls := r.0.calls)
    ensures var hit := SpriteCollision(p, g.tileMap.sprites);
            hit.Some? && p.IsAlive() && g.tileMap.sprites[hit.value].IsCreature() && !canKill
            ==> && r.0.tileMap == g.tileMap
                && r.1 == p.(state := Dying)
                && r.0.numLives == g.numLives - 1 && r.0.collectedStars == g.collectedStars
                && r.0.calls == g.calls + (if g.numLives - 1 <= 0 then [Stop] else [])
                && r.0 == g.(numLives := r.0.numLives, calls := r.0.calls)
    ensures r.0.controls == g.controls && g.calls <= r.0.calls
    ensures r.1.id == p.id && r.1.kind == p.kind && r.1.x == p.x
    ensures r.0.generation == g.generation ==> r.0.tileMap.player == g.tileMap.player
    ensures r.0.generation != g.generation ==> r.0.generation == g.generation + 1 && r.0.tileMap == env.nextMap
  {
    if !p.IsAlive() then (g, p)
    else match SpriteCollision(p, g.tileMap.sprites)
      case None => (g, p)
      case Some(i) =>
        var foe := g.tileMap.sprites[i];
        if foe.kind.PowerUpSprite? then (AcquirePowerUp(g, i, env), p)
        else if canKill then
          (g.(tileMap := g.tileMap.(sprites := g.tileMap.sprites[i := foe.(state := Dying)]), calls := g.calls + [Jump(true)]),
           p.(y := foe.y - p.height))
        else
          var lives := g.numLives - 1;
          (g.(numLives := lives, calls := g.calls + (if lives <= 0 then [Stop] else [])), p.(state := Dying))
  }

  /** The player's horizontal pass: move, then check contacts with killing
      off. A creature met here is never killed: the player dies instead. */
  function PlayerHorizontalPass(g: Game, p: Sprite, env: Env): (r: (Game, Sprite))
    ensures var h := MoveHorizontally(g.tileMap, p, env.elapsed);
            var hit := SpriteCollision(h.sprite, g.tileMap.sprites);
            p.IsAlive() && hit.Some? && g.tileMap.sprites[hit.value].IsCreature()
            ==> && r.1 == h.sprite.(state := Dying)
                && r.0.numLives == g.numLives - 1
                && r.0.tileMap == g.tileMap
    ensures r.1.y == p.y
    ensures r.1.x == MoveHorizontally(g.tileMap, p, env.elapsed).sprite.x
    ensures var h := MoveHorizontally(g.tileMap, p, env.elapsed);
            var hit := SpriteCollision(h.sprite, g.tileMap.sprites);
            var g1 := g.(calls := g.calls + (if h.blocked then [CollideHorizontal(p.id)] else []));
            && (!p.IsAlive() || hit.None? ==> r == (g1, h.sprite))
            && (p.IsAlive() && hit.Some? && g.tileMap.sprites[hit.value].kind.PowerUpSprite?
                ==> r == (AcquirePowerUp(g1, hit.value, env), h.sprite))
  {
    var h := MoveHorizontally(g.tileMap, p, env.elapsed);
    var g1 := g.(calls := g.calls + (if h.blocked then [CollideHorizontal(p.id)] else []));
    CheckPlayerCollision(g1, h.sprite, false, env)
  }

  /** The player's vertical pass: move, then check contacts with killing
      allowed exactly when the move took the player strictly downwards. */
  function PlayerVerticalPass(g: Game, p: Sprite, env: Env): (r: (Game, Sprite))
    ensures var v := MoveVertically(g.tileMap, p, env.elapsed);
            var hit := SpriteCollision(v.sprite, g.tileMap.sprites);
            p.IsAlive() && hit.Some? && g.tileMap.sprites[hit.value].IsCreature()
            ==> var foe := g.tileMap.sprites[hit.value];
                && (p.y < v.sprite.y ==> && r.0.tileMap.sprites == g.tileMap.sprites[hit.value := foe.(state := Dying)]
                                         && r.1.y == foe.y - p.height
                                         && r.1.IsAlive()
                                         && r.0.numLives == g.numLives)
                && (v.sprite.y <= p.y ==> && r.1 == v.sprite.(state := Dying)
                                          && r.0.numLives == g.numLives - 1
                                          && r.0.tileMap == g.tileMap)
    ensures var v := MoveVertically(g.tileMap, p, env.elapsed);
            var hit := SpriteCollision(v.sprite, g.tileMap.sprites);
            var g1 := g.(calls := g.calls + (if v.blocked then [CollideVertical(p.id)] else []));
            && (!p.IsAlive() || hit.None? ==> r == (g1, v.sprite))
            && (p.IsAlive() && hit.Some? && g.tileMap.sprites[hit.value].kind.PowerUpSprite?
                ==> r == (AcquirePowerUp(g1, hit.value, env), v.sprite))
  {
    var v := MoveVertically(g.tileMap, p, env.elapsed);
    var g1 := g.(calls := g.calls + (if v.blocked then [CollideVertical(p.id)] else []));
    CheckPlayerCollision(g1, v.sprite, p.y < v.sprite.y, env)
  }

  /** `updateCreature` for the player up to the write-back: gravity, the
      horizontal pass, the vertical pass. */
  function PlayerPasses(g: Game, env: Env): (r: (Game, Sprite))
    ensures 0 <= g.collectedStars < STARS_PER_LIFE ==> 0 <= r.0.collectedStars < STARS_PER_LIFE
    ensures g.numLives - 1 <= r.0.numLives <= g.numLives + 1
    ensures r.0.controls == g.controls
    ensures !g.tileMap.player.IsAlive() ==> r.0.numLives == g.numLives && r.0.tileMap.sprites == g.tileMap.sprites
    ensures g.generation <= r.0.generation
    ensures r.0.generation == g.generation ==> r.0.tileMap.player == g.tileMap.player && r.1.id == g.tileMap.player.id
    ensures r.0.generation != g.generation ==> r.0.tileMap.player == env.nextMap.player
  {
    var p := ApplyGravity(g.tileMap.player, env);
    var (g1, p1) := PlayerHorizontalPass(g, p, env);
    PlayerVerticalPass(g1, p1, env)
  }

  /** A player that is not alive, or touches no sprite after either move,
      is moved exactly as any other creature: the same clamps, and the same
      collision calls. */
  lemma PlayerMovesLikeACreature(g: Game, env: Env)
    requires var h := MoveHorizontally(g.tileMap, ApplyGravity(g.tileMap.player, env), env.elapsed);
             || !g.tileMap.player.IsAlive()
             || (&& SpriteCollision(h.sprite, g.tileMap.sprites).None?
                 && SpriteCollision(MoveVertically(g.tileMap, h.sprite, env.elapsed).sprite, g.tileMap.sprites).None?)
    ensures var moved := MoveCreature(g.tileMap, g.tileMap.player, env);
            PlayerPasses(g, env) == (g.(calls := g.calls + moved.1), moved.0)
  {
    PassesWithoutContact(g, env);
  }

  /** The passes without contact, step by step. */
  lemma PassesWithoutContact(g: Game, env: Env)
    requires var h := MoveHorizontally(g.tileMap, ApplyGravity(g.tileMap.player, env), env.elapsed);
             || !g.tileMap.player.IsAlive()
             || (&& SpriteCollision(h.sprite, g.tileMap.sprites).None?
                 && SpriteCollision(MoveVertically(g.tileMap, h.sprite, env.elapsed).sprite, g.tileMap.sprites).None?)
    ensures var p := ApplyGravity(g.tileMap.player, env);
            var h := MoveHorizontally(g.tileMap, p, env.elapsed);
            var v := MoveVertically(g.tileMap, h.sprite, env.elapsed);
            PlayerPasses(g, env) == (g.(calls := g.calls + HitCalls(p.id, h, v)), v.sprite)
  {
    var p := ApplyGravity(g.tileMap.player, env);
    var h := MoveHorizontally(g.tileMap, p, env.elapsed);
    var v := MoveVertically(g.tileMap, h.sprite, env.elapsed);
    var hCalls := if h.blocked then [CollideHorizontal(p.id)] else [];
    var vCalls := if v.blocked then [CollideVertical(p.id)] else [];
    QuietHorizontalPass(g, env);
    HitCallsInOrder(g.calls, p.id, h, v);
  }

  /** Logging the horizontal hit and then the vertical one appends `HitCalls`. */
  lemma HitCallsInOrder(calls: seq<Call>, id: nat, h: AxisMove, v: AxisMove)
    ensures calls + (if h.blocked then [CollideHorizontal(id)] else []) + (if v.blocked then [CollideVertical(id)] else [])
            == calls + HitCalls(id, h, v)
  {
    assert HitCalls(id, h, v) == (if h.blocked then [CollideHorizontal(id)] else []) + (if v.blocked then [CollideVertical(id)] else []);
  }

  /** Without contact, or for a player that is not alive, the horizontal
      pass only moves and logs, so the vertical pass starts from the same
      map. */
  lemma QuietHorizontalPass(g: Game, env: Env)
    requires || !g.tileMap.player.IsAlive()
             || SpriteCollision(MoveHorizontally(g.tileMap, ApplyGravity(g.tileMap.player, env), env.elapsed).sprite, g.tileMap.sprites).None?
    ensures var p := ApplyGravity(g.tileMap.player, env);
            var h := MoveHorizontally(g.tileMap, p, env.elapsed);
            PlayerPasses(g, env) == PlayerVerticalPass(g.(calls := g.calls + (if h.blocked then [CollideHorizontal(p.id)] else [])), h.sprite, env)
  {
  }

  /** `updateCreature` for the player. The moved player is written back only
      if the map it belongs to is still loaded; everything else is what the
      two passes left. */
  function UpdatePlayer(g: Game, env: Env): (r: Game)
    ensures 0 <= g.collectedStars < STARS_PER_LIFE ==> 0 <= r.collectedStars < STARS_PER_LIFE
    ensures g.numLives - 1 <= r.numLives <= g.numLives + 1
    ensures r.controls == g.controls
    ensures !g.tileMap.player.IsAlive() ==> r.numLives == g.numLives && r.tileMap.sprites == g.tileMap.sprites
    ensures g.generation <= r.generation
    ensures r.generation == g.generation ==> r.tileMap.player.id == g.tileMap.player.id
    ensures r.generation != g.generation ==> r.tileMap.player == env.nextMap.player
    ensures var (g2, p2) := PlayerPasses(g, env);
            && r.generation == g2.generation && r.calls == g2.calls
            && r.collectedStars == g2.collectedStars && r.numLives == g2.numLives
            && (r.generation == g.generation ==> r.tileMap == g2.tileMap.(player := p2))
            && (r.generation != g.generation ==> r.tileMap == g2.tileMap)
  {
    var (g2, p2) := PlayerPasses(g, env);
    if g2.generation == g.generation then g2.(tileMap := g2.tileMap.(player := p2)) else g2
  }

  // ---------------------------------------------------------------------
  // The tick

  /** The `stop()` call made when `c` holds. */
  function StopIf(c: bool): (r: seq<Call>)
    ensures Stop in r <==> c
    ensures |r| <= 1
  {
    if c then [Stop] else []
  }

  /** `checkInput`: the exit action is read first and stops the game; the
      movement and jump actions are read only while the player is alive, and
      set the player's horizontal speed and request a jump. Every read is a
      consuming `isPressed`. */
  function CheckInput(g: Game): (r: Game)
    ensures r.controls.exit == IsPressed(g.controls.exit).0
    ensures !g.tileMap.player.IsAlive() ==> r.calls == g.calls + StopIf(g.controls.exit.amount != 0)
    ensures !g.tileMap.player.IsAlive() ==>
              r == g.(controls := r.controls, calls := r.calls)
              && r.controls == g.controls.(exit := r.controls.exit)
    ensures g.tileMap.player.IsAlive() ==>
              var left := g.controls.moveLeft.amount != 0;
              var right := g.controls.moveRight.amount != 0;
              && r.tileMap.player == g.tileMap.player.(vx := r.tileMap.player.vx)
              && (left == right ==> r.tileMap.player.vx == 0)
              && (left && !right ==> r.tileMap.player.vx == -g.tileMap.player.maxSpeed)
              && (right && !left ==> r.tileMap.player.vx == g.tileMap.player.maxSpeed)
              && r.calls == g.calls + StopIf(g.controls.exit.amount != 0)
                            + (if g.controls.jump.amount != 0 then [Jump(false)] else [])
              && r.controls.moveLeft == IsPressed(g.controls.moveLeft).0
              && r.controls.moveRight == IsPressed(g.controls.moveRight).0
              && r.controls.jump == IsPressed(g.controls.jump).0
              && r.tileMap == g.tileMap.(player := r.tileMap.player)
              && r == g.(controls := r.controls, calls := r.calls, tileMap := r.tileMap)
    ensures r.collectedStars == g.collectedStars && r.numLives == g.numLives
    ensures r.tileMap.sprites == g.tileMap.sprites && r.generation == g.generation
  {
    var c := g.controls;
    var (exit, quit) := IsPressed(c.exit);
    var calls := g.calls + StopIf(quit);
    var player := g.tileMap.player;
    if !player.IsAlive() then
      g.(controls := c.(exit := exit), calls := calls)
    else
      var (left, goLeft) := IsPressed(c.moveLeft);
      var (right, goRight) := IsPressed(c.moveRight);
      var (jump, doJump) := IsPressed(c.jump);
      var vx := (if goLeft then -player.maxSpeed else 0) + (if goRight then player.maxSpeed else 0);
      g.(controls := Controls(left, right, jump, exit),
         calls := calls + (if doJump then [Jump(false)] else []),
         tileMap := g.tileMap.(player := player.(vx := vx)))
  }

  /** A press of the exit key stops the game once: the tick that reads it
      calls `stop`, and the next tick, with no new key event, does not. This
      holds for a fresh exit action and for the pressed one holding nothing
      that `initInput` leaves. */
  lemma ExitStopsOnce(g: Game)
    requires g.controls.exit.behavior == DETECT_INITAL_PRESS_ONLY
    requires g.controls.exit.state != WaitForRelease && g.controls.exit.amount == 0
    ensures var first := CheckInput(g.(controls := g.controls.(exit := Press(g.controls.exit, 1))));
            var second := CheckInput(first);
            && first.calls[|g.calls|] == Stop
            && (forall k :: |first.calls| <= k < |second.calls| ==> second.calls[k] != Stop)
  {
  }

  /** A sprite the tick drops: a creature found dead. */
  predicate Pruned(s: Sprite)
  {
    s.IsCreature() && s.state == Dead
  }

  /** The sprites the tick keeps, in order. */
  function Survivors(sprites: seq<Sprite>): (r: seq<Sprite>)
    ensures |r| <= |sprites|
    ensures forall s :: s in r ==> s in sprites && !Pruned(s)
    ensures forall s :: s in sprites && !Pruned(s) ==> s in r
    ensures |sprites| == 1 ==> r == (if Pruned(sprites[0]) then [] else sprites)
  {
    if sprites == [] then []
    else if Pruned(sprites[0]) then Survivors(sprites[1..])
    else [sprites[0]] + Survivors(sprites[1..])
  }

  /** Filtering keeps order: the survivors of two stretches of sprites, one
      after the other, are the survivors of the first followed by those of
      the second. */
  lemma {:induction false} SurvivorsKeepOrder(a: seq<Sprite>, b: seq<Sprite>)
    ensures Survivors(a + b) == Survivors(a) + Survivors(b)
    decreases |a|
  {
    if a == [] {
      assert a + b == b;
    } else {
      assert (a + b)[0] == a[0];
      assert (a + b)[1..] == a[1..] + b;
      SurvivorsKeepOrder(a[1..], b);
    }
  }

  /** The identities of the creatures the tick moves. */
  function MovedIds(sprites: seq<Sprite>): (r: set<nat>)
  {
    set s | s in sprites && s.IsCreature() && !Pruned(s) :: s.id
  }

  /** One pass of the loop over the map's sprites for a sprite it keeps: a
      creature is moved, anything else is left as it is. */
  function Visit(m: TileMap, s: Sprite, env: Env): (r: (Sprite, seq<Call>))
    ensures r.0.id == s.id && r.0.kind == s.kind && r.0.state == s.state
    ensures !s.IsCreature() ==> r == (s, [])
    ensures s.IsCreature() ==> r == MoveCreature(m, s, env)
  {
    if s.IsCreature() then MoveCreature(m, s, env) else (s, [])
  }

  /** A visit logs only the tile collisions of a creature. */
  lemma VisitLogsCollisionsOnly(m: TileMap, s: Sprite, env: Env)
    ensures forall call :: call in Visit(m, s, env).1 ==>
              s.IsCreature() && (call == CollideHorizontal(s.id) || call == CollideVertical(s.id))
  {
  }

  /** The loop over the map's sprites in `update`: a dead creature is removed
      without being moved, every other sprite is visited, in order, and
      every sprite, the removed ones included, then has its `update` called. */
  function UpdateSprites(m: TileMap, sprites: seq<Sprite>, env: Env): (r: (seq<Sprite>, seq<Call>))
    ensures |r.0| == |Survivors(sprites)|
    ensures forall k :: 0 <= k < |r.0| ==> r.0[k] == Visit(m, Survivors(sprites)[k], env).0
  {
    if sprites == [] then ([], [])
    else
      var s := sprites[0];
      var (rest, calls) := UpdateSprites(m, sprites[1..], env);
      if Pruned(s) then
        assert Survivors(sprites) == Survivors(sprites[1..]);
        (rest, [SpriteUpdate(s.id)] + calls)
      else
        var survivors := Survivors(sprites[1..]);
        assert Survivors(sprites) == [s] + survivors;
        var (moved, hits) := Visit(m, s, env);
        assert forall k :: 1 <= k <= |rest| ==> ([moved] + rest)[k] == Visit(m, ([s] + survivors)[k], env).0 by {
          forall k | 1 <= k <= |rest| ensures ([moved] + rest)[k] == Visit(m, ([s] + survivors)[k], env).0 {
            assert ([s] + survivors)[k] == survivors[k - 1];
          }
        }
        ([moved] + rest, hits + [SpriteUpdate(s.id)] + calls)
  }

  /** Every collaborator call the loop makes is an `update` or a tile
      collision of a creature it moved. */
  lemma {:induction false} UpdateSpritesCallsAreCollisions(m: TileMap, sprites: seq<Sprite>, env: Env)
    ensures forall call :: call in UpdateSprites(m, sprites, env).1 && !call.SpriteUpdate? ==>
              (call.CollideHorizontal? || call.CollideVertical?) && call.id in MovedIds(sprites)
    decreases |sprites|
  {
    if sprites != [] {
      var s := sprites[0];
      var rest := UpdateSprites(m, sprites[1..], env).1;
      var hits := if Pruned(s) then [] else Visit(m, s, env).1;
      assert UpdateSprites(m, sprites, env).1 == hits + [SpriteUpdate(s.id)] + rest;
      VisitLogsCollisionsOnly(m, s, env);
      UpdateSpritesCallsAreCollisions(m, sprites[1..], env);
      assert MovedIds(sprites[1..]) <= MovedIds(sprites) by {
        assert forall t :: t in sprites[1..] ==> t in sprites;
      }
      if hits != [] {
        assert s.IsCreature() && !Pruned(s) && s in sprites;
        assert s.id in MovedIds(sprites);
      }
    }
  }

  /** After the loop no dead creature is left, and every sprite left is a
      visited survivor with its identity and kind. */
  lemma UpdateSpritesDropsTheDead(m: TileMap, sprites: seq<Sprite>, env: Env)
    ensures var r := UpdateSprites(m, sprites, env).0;
            forall k :: 0 <= k < |r| ==> !Pruned(r[k]) && r[k].id == Survivors(sprites)[k].id
  {
    var r := UpdateSprites(m, sprites, env).0;
    forall k | 0 <= k < |r|
      ensures !Pruned(r[k]) && r[k].id == Survivors(sprites)[k].id
    {
      var before := Survivors(sprites)[k];
      assert before in Survivors(sprites);
      assert r[k] == Visit(m, before, env).0;
    }
  }

  /** The sprites whose `update` the calls invoke, in call order. */
  function UpdatedIds(calls: seq<Call>): (r: seq<nat>)
    ensures |r| <= |calls|
  {
    if calls == [] then []
    else (if calls[0].SpriteUpdate? then [calls[0].id] else []) + UpdatedIds(calls[1..])
  }

  lemma {:induction false} UpdatedIdsAppend(a: seq<Call>, b: seq<Call>)
    ensures UpdatedIds(a + b) == UpdatedIds(a) + UpdatedIds(b)
    decreases |a|
  {
    if a == [] {
      assert a + b == b;
    } else {
      assert (a + b)[0] == a[0];
      assert (a + b)[1..] == a[1..] + b;
      UpdatedIdsAppend(a[1..], b);
    }
  }

  /** The identities of a sprite sequence, in order. */
  function Ids(sprites: seq<Sprite>): (r: seq<nat>)
    ensures |r| == |sprites|
    ensures forall k :: 0 <= k < |sprites| ==> r[k] == sprites[k].id
  {
    seq(|sprites|, k requires 0 <= k < |sprites| => sprites[k].id)
  }

  /** The loop calls `update` once on every sprite it iterates over, in
      order, whether it keeps the sprite or removes it. */
  lemma {:induction false} LoopUpdatesEverySprite(m: TileMap, sprites: seq<Sprite>, env: Env)
    ensures UpdatedIds(UpdateSprites(m, sprites, env).1) == Ids(sprites)
    decreases |sprites|
  {
    if sprites != [] {
      LoopStepUpdatesFirst(m, sprites, env);
      LoopUpdatesEverySprite(m, sprites[1..], env);
      assert Ids(sprites) == [sprites[0].id] + Ids(sprites[1..]);
    }
  }

  /** One step of the loop calls `update` on its sprite, after its
      collisions and before the rest of the loop. */
  lemma LoopStepUpdatesFirst(m: TileMap, sprites: seq<Sprite>, env: Env)
    requires sprites != []
    ensures UpdatedIds(UpdateSprites(m, sprites, env).1) == [sprites[0].id] + UpdatedIds(UpdateSprites(m, sprites[1..], env).1)
  {
    var s := sprites[0];
    var calls := UpdateSprites(m, sprites[1..], env).1;
    var hits := if Pruned(s) then [] else Visit(m, s, env).1;
    assert UpdateSprites(m, sprites, env).1 == hits + [SpriteUpdate(s.id)] + calls;
    VisitLogsCollisionsOnly(m, s, env);
    OneUpdatePerSprite(hits, s.id, calls);
  }

  /** The calls the loop logs for one sprite, its collisions and then its
      `update`, name it once for `update`. */
  lemma OneUpdatePerSprite(hits: seq<Call>, id: nat, calls: seq<Call>)
    requires forall call :: call in hits ==> !call.SpriteUpdate?
    ensures UpdatedIds(hits + [SpriteUpdate(id)] + calls) == [id] + UpdatedIds(calls)
  {
    assert UpdatedIds([SpriteUpdate(id)]) == [id];
    UpdatedIdsAppend([SpriteUpdate(id)], calls);
    NoUpdatesAmongHits(hits);
    UpdatedIdsAppend(hits, [SpriteUpdate(id)] + calls);
    assert hits + [SpriteUpdate(id)] + calls == hits + ([SpriteUpdate(id)] + calls);
  }

  /** Collision calls name no sprite to update. */
  lemma {:induction false} NoUpdatesAmongHits(hits: seq<Call>)
    requires forall call :: call in hits ==> !call.SpriteUpdate?
    ensures UpdatedIds(hits) == []
    decreases |hits|
  {
    if hits != [] {
      assert hits[0] in hits;
      assert forall call :: call in hits[1..] ==> call in hits;
      NoUpdatesAmongHits(hits[1..]);
    }
  }

  /** The calls the loop logs for one sprite: a kept sprite's visit calls,
      then its `update`. */
  function SpriteLog(m: TileMap, s: Sprite, env: Env): (r: seq<Call>)
    ensures |r| >= 1 && r[|r| - 1] == SpriteUpdate(s.id)
    ensures forall call :: call in r && !call.SpriteUpdate? ==> !Pruned(s) && call in Visit(m, s, env).1
  {
    (if Pruned(s) then [] else Visit(m, s, env).1) + [SpriteUpdate(s.id)]
  }

  /** Logs of several sprites, one after the other. */
  function Flatten(logs: seq<seq<Call>>): (r: seq<Call>)
    ensures forall k, call :: 0 <= k < |logs| && call in logs[k] ==> call in r
  {
    if logs == [] then []
    else
      var rest := Flatten(logs[1..]);
      assert forall k, call :: 1 <= k < |logs| && call in logs[k] ==> call in rest by {
        forall k, call | 1 <= k < |logs| && call in logs[k] ensures call in rest {
          assert logs[k] == logs[1..][k - 1];
        }
      }
      logs[0] + rest
  }

  /** Each sprite's log, in the order of the sprites. */
  function Logs(m: TileMap, sprites: seq<Sprite>, env: Env): (r: seq<seq<Call>>)
    ensures |r| == |sprites|
    ensures forall k :: 0 <= k < |sprites| ==> r[k] == SpriteLog(m, sprites[k], env)
  {
    seq(|sprites|, k requires 0 <= k < |sprites| => SpriteLog(m, sprites[k], env))
  }

  /** The loop's calls are the logs of its sprites one after the other: the
      visit calls of every kept sprite, its `update`, then the next sprite's. */
  lemma {:induction false} LoopLogsEverySprite(m: TileMap, sprites: seq<Sprite>, env: Env)
    ensures UpdateSprites(m, sprites, env).1 == Flatten(Logs(m, sprites, env))
    decreases |sprites|
  {
    if sprites != [] {
      LoopStepLogsSprite(m, sprites, env);
      LoopLogsEverySprite(m, sprites[1..], env);
      var logs := Logs(m, sprites, env);
      assert logs[1..] == Logs(m, sprites[1..], env);
    }
  }

  /** One step of the loop logs its sprite's calls ahead of the rest. */
  lemma LoopStepLogsSprite(m: TileMap, sprites: seq<Sprite>, env: Env)
    requires sprites != []
    ensures UpdateSprites(m, sprites, env).1 == SpriteLog(m, sprites[0], env) + UpdateSprites(m, sprites[1..], env).1
  {
    var s := sprites[0];
    var hits := if Pruned(s) then [] else Visit(m, s, env).1;
    assert UpdateSprites(m, sprites, env).1 == hits + [SpriteUpdate(s.id)] + UpdateSprites(m, sprites[1..], env).1;
  }

  /** No collision call is lost: every call a kept sprite's visit makes,
      `collideHorizontal` and `collideVertical` of a blocked creature, is in
      the loop's calls. */
  lemma LoopLogsEveryCollision(m: TileMap, sprites: seq<Sprite>, env: Env, k: nat)
    requires k < |sprites| && !Pruned(sprites[k])
    ensures forall call :: call in Visit(m, sprites[k], env).1 ==> call in UpdateSprites(m, sprites, env).1
  {
    LoopLogsEverySprite(m, sprites, env);
    var logs := Logs(m, sprites, env);
    forall call | call in Visit(m, sprites[k], env).1
      ensures call in UpdateSprites(m, sprites, env).1
    {
      assert call in logs[k];
    }
  }

  /** `update(elapsedTime)`. A dead player only reloads the map. Otherwise
      the input is read, the player is moved and updated, and then the
      sprites of the map now loaded are moved, pruned and updated. */
  function Update(g: Game, env: Env): (r: Game)
    ensures g.tileMap.player.state == Dead ==> r == g.(tileMap := env.reloadedMap, generation := g.generation + 1)
    ensures g.tileMap.player.state != Dead ==>
              && (forall k :: 0 <= k < |r.tileMap.sprites| ==> !Pruned(r.tileMap.sprites[k]))
              && g.numLives - 1 <= r.numLives <= g.numLives + 1
    ensures 0 <= g.collectedStars < STARS_PER_LIFE ==> 0 <= r.collectedStars < STARS_PER_LIFE
    ensures g.tileMap.player.state != Dead ==>
              var g2 := UpdatePlayer(CheckInput(g), env);
              var loop := UpdateSprites(g2.tileMap, g2.tileMap.sprites, env);
              && r == g2.(tileMap := g2.tileMap.(sprites := loop.0),
                          calls := g2.calls + [SpriteUpdate(g.tileMap.player.id)] + loop.1)
              && |r.tileMap.sprites| == |Survivors(g2.tileMap.sprites)|
              && (forall k :: 0 <= k < |r.tileMap.sprites| ==>
                    r.tileMap.sprites[k] == Visit(g2.tileMap, Survivors(g2.tileMap.sprites)[k], env).0)
  {
    if g.tileMap.player.state == Dead then
      g.(tileMap := env.reloadedMap, generation := g.generation + 1)
    else
      var g1 := CheckInput(g);
      var g2 := UpdatePlayer(g1, env);
      var (sprites, calls) := UpdateSprites(g2.tileMap, g2.tileMap.sprites, env);
      UpdateSpritesDropsTheDead(g2.tileMap, g2.tileMap.sprites, env);
      g2.(tileMap := g2.tileMap.(sprites := sprites), calls := g2.calls + [SpriteUpdate(g.tileMap.player.id)] + calls)
  }
}

=== FILE: game_action.dfy ===
/** A named input action that turns press/release edges into an amount read
    by the game loop. The three inner state classes of the Java class become
    the `PressState` enumeration and one transition table, `Step`. */
module GameActions {
  import opened JavaInt

  /** Behaviour codes. Any behaviour other than `DETECT_INITAL_PRESS_ONLY`
      acts as `NORMAL`, since the class only ever compares against that one. */
  const NORMAL: Int32 := 0
  const DETECT_INITAL_PRESS_ONLY: Int32 := 1

  datatype PressState = Released | Pressed | WaitForRelease

  /** The two edges every state reacts to. */
  datatype Edge = PressEdge(n: Int32) | ReleaseEdge

  datatype GameAction = GameAction(name: string, behavior: Int32, state: PressState, amount: Int32)
  {
    /** No amount is held while the action waits for a release: the only way
        into `WaitForRelease` clears the amount, and nothing there adds to it. */
    predicate Valid() {
      state == WaitForRelease ==> amount == 0
    }
  }

  /** The transition table of the three state classes: the state and amount
      after an edge. */
  function Step(s: PressState, amount: Int32, e: Edge): (r: (PressState, Int32))
    ensures r.0 == Released <==> e.ReleaseEdge?
    ensures r.0 == WaitForRelease ==> s == WaitForRelease && r.1 == amount
    ensures e.PressEdge? && s != WaitForRelease ==> r == (Pressed, Add32(amount, e.n))
    ensures e.PressEdge? && s == WaitForRelease ==> r == (WaitForRelease, amount)
    ensures e.ReleaseEdge? && s != WaitForRelease ==> r.1 == amount
    ensures e.ReleaseEdge? && s == WaitForRelease ==> r.1 == 0
  {
    match s
    case Released =>
      (match e
       case PressEdge(n) => (Pressed, Add32(amount, n))
       case ReleaseEdge => (Released, amount))
    case Pressed =>
      (match e
       case PressEdge(n) => (Pressed, Add32(amount, n))
       case ReleaseEdge => (Released, amount))
    case WaitForRelease =>
      (match e
       case PressEdge(_) => (WaitForRelease, amount)
       case ReleaseEdge => (Released, 0))
  }

  /** Applies an edge to an action by handing it to the current state.
      Name and behaviour never change, a release always ends `Released`, a
      press while waiting for a release is ignored, and no edge breaks
      `Valid`. */
  function Apply(a: GameAction, e: Edge): (r: GameAction)
    ensures r.name == a.name && r.behavior == a.behavior
    ensures e.ReleaseEdge? ==> r.state == Released
    ensures e.PressEdge? && a.state == WaitForRelease ==> r == a
    ensures e.PressEdge? && a.state != WaitForRelease ==> r.state == Pressed && r.amount == Add32(a.amount, e.n)
    ensures e.ReleaseEdge? && a.state != WaitForRelease ==> r.amount == a.amount
    ensures e.ReleaseEdge? && a.state == WaitForRelease ==> r.amount == 0
    ensures a.Valid() ==> r.Valid()
  {
    var (s, m) := Step(a.state, a.amount, e);
    a.(state := s, amount := m)
  }

  /** The constructor: a fresh action is released and holds nothing. */
  function New(name: string, behavior: Int32): (a: GameAction)
    ensures a.name == name && a.behavior == behavior
    ensures a.state == Released && a.amount == 0
    ensures a.Valid()
  {
    GameAction(name, behavior, Released, 0)
  }

  /** `reset`: back to the constructor's state, keeping name and behaviour. */
  function Reset(a: GameAction): (r: GameAction)
    ensures r == New(a.name, a.behavior)
  {
    a.(state := Released, amount := 0)
  }

  /** `press(n)`; `press()` is `Press(a, 1)`. */
  function Press(a: GameAction, n: Int32): (r: GameAction)
    ensures r.name == a.name && r.behavior == a.behavior
    ensures a.state == WaitForRelease ==> r == a
    ensures a.state != WaitForRelease ==> r.state == Pressed && r.amount == Add32(a.amount, n)
    ensures a.Valid() ==> r.Valid()
  {
    Apply(a, PressEdge(n))
  }

  /** `release()`. */
  function Release(a: GameAction): (r: GameAction)
    ensures r.name == a.name && r.behavior == a.behavior
    ensures r.state == Released
    ensures a.state != WaitForRelease ==> r.amount == a.amount
    ensures a.state == WaitForRelease ==> r.amount == 0
    ensures a.state == Released ==> r == a
    ensures r.Valid()
  {
    Apply(a, ReleaseEdge)
  }

  /** `tap()`: a press of one immediately followed by a release. */
  function Tap(a: GameAction): (r: GameAction)
    ensures r.name == a.name && r.behavior == a.behavior
    ensures r.state == Released
    ensures a.state != WaitForRelease ==> r.amount == Add32(a.amount, 1)
    ensures a.state == WaitForRelease ==> r.amount == 0
  {
    Release(Press(a, 1))
  }

  /** `getAmount()`: a consuming read. It always answers the amount held
      before the call; what it leaves behind depends on state and behaviour. */
  function GetAmount(a: GameAction): (r: (GameAction, Int32))
    ensures r.1 == a.amount
    ensures r.0.name == a.name && r.0.behavior == a.behavior
    ensures a.amount == 0 ==> r.0 == a
    ensures a.amount != 0 && a.state == Released ==> r.0 == a.(amount := 0)
    ensures a.amount != 0 && a.state == Pressed && a.behavior == DETECT_INITAL_PRESS_ONLY
            ==> r.0.state == WaitForRelease && r.0.amount == 0
    ensures a.state == Pressed && a.behavior != DETECT_INITAL_PRESS_ONLY ==> r.0 == a
    ensures a.state == WaitForRelease ==> r.0 == a
    ensures a.Valid() ==> r.0.Valid()
  {
    if a.amount != 0 then
      if a.state == Released then
        (a.(amount := 0), a.amount)
      else if a.behavior == DETECT_INITAL_PRESS_ONLY && a.state == Pressed then
        (a.(state := WaitForRelease, amount := 0), a.amount)
      else
        (a, a.amount)
    else
      (a, a.amount)
  }

  /** `isPressed()`: the same consuming read, answering whether the amount
      was non-zero. */
  function IsPressed(a: GameAction): (r: (GameAction, bool))
    ensures r.1 <==> a.amount != 0
    ensures r.0 == GetAmount(a).0
  {
    var (a', v) := GetAmount(a);
    (a', v != 0)
  }

  /** `move(dx, dy)` has an empty body. */
  function Move(a: GameAction, dx: Int32, dy: Int32): (r: GameAction)
    ensures r == a
  {
    a
  }

  /** `k` consecutive `getAmount()` calls: the action left behind and the
      values read, in order. */
  function ReadAmounts(a: GameAction, k: nat): (r: (GameAction, seq<Int32>))
    ensures |r.1| == k
    ensures r.0.name == a.name && r.0.behavior == a.behavior
    decreases k
  {
    if k == 0 then (a, [])
    else
      var (a', v) := GetAmount(a);
      var (a'', vs) := ReadAmounts(a', k - 1);
      (a'', [v] + vs)
  }

  function Repeat(v: Int32, k: nat): (r: seq<Int32>)
    ensures |r| == k && forall i :: 0 <= i < k ==> r[i] == v
  {
    seq(k, _ => v)
  }

  /** While an action waits for its release, every read answers 0 and
      leaves it as it is. */
  lemma {:induction false} WaitingReadsZero(a: GameAction, k: nat)
    requires a.state == WaitForRelease && a.amount == 0
    ensures ReadAmounts(a, k) == (a, Repeat(0, k))
    decreases k
  {
    if k == 0 {
      assert Repeat(0, 0) == [];
    } else {
      assert GetAmount(a) == (a, 0);
      WaitingReadsZero(a, k - 1);
      assert [0 as Int32] + Repeat(0, k - 1) == Repeat(0, k);
    }
  }

  /** A held `NORMAL` action answers the same amount on every read. */
  lemma {:induction false} HeldReadsRepeat(a: GameAction, k: nat)
    requires a.state == Pressed && a.behavior != DETECT_INITAL_PRESS_ONLY
    ensures ReadAmounts(a, k) == (a, Repeat(a.amount, k))
    decreases k
  {
    if k == 0 {
      assert Repeat(a.amount, 0) == [];
    } else {
      assert GetAmount(a) == (a, a.amount);
      HeldReadsRepeat(a, k - 1);
      assert [a.amount] + Repeat(a.amount, k - 1) == Repeat(a.amount, k);
    }
  }

  /** Debounce law. For a `DETECT_INITAL_PRESS_ONLY` action holding nothing
      (fresh, or after the `press(0)` the game uses to initialise its
      actions), `press(1)` followed by `k + 1` reads answers 1 once and then
      0, further presses are ignored, and only a release followed by a new
      press makes a read answer 1 again. */
  lemma DebounceLaw(a: GameAction, k: nat, n: Int32)
    requires a.behavior == DETECT_INITAL_PRESS_ONLY
    requires a.state != WaitForRelease && a.amount == 0
    ensures ReadAmounts(Press(a, 1), k + 1).1 == [1] + Repeat(0, k)
    ensures var w := ReadAmounts(Press(a, 1), k + 1).0;
            Press(w, n) == w && GetAmount(Press(Release(w), 1)).1 == 1
  {
    var (w, v) := GetAmount(Press(a, 1));
    assert v == 1 && w.state == WaitForRelease && w.amount == 0;
    WaitingReadsZero(w, k);
  }

  /** Continuous law. A `NORMAL` action pressed once answers 1 on every read
      while held; after the release, the next read answers 1 and the one after
      answers 0. */
  lemma ContinuousLaw(a: GameAction, k: nat)
    requires a.behavior != DETECT_INITAL_PRESS_ONLY
    requires a.state != WaitForRelease && a.amount == 0
    ensures ReadAmounts(Press(a, 1), k) == (Press(a, 1), Repeat(1, k))
    ensures ReadAmounts(Release(Press(a, 1)), 2).1 == [1, 0]
  {
    HeldReadsRepeat(Press(a, 1), k);
  }

  /** Stacking: `press(2)` then `press(3)` with no release in between is read
      as 5. */
  lemma Stacking(a: GameAction)
    requires a.state != WaitForRelease && a.amount == 0
    ensures GetAmount(Press(Press(a, 2), 3)).1 == 5
  {
  }

  /** `tap()` on an action holding nothing is read as 1 once, then 0, with
      either behaviour. */
  lemma TapReadsOnce(a: GameAction)
    requires a.state != WaitForRelease && a.amount == 0
    ensures ReadAmounts(Tap(a), 2).1 == [1, 0]
  {
  }
}

=== FILE: java_int.dfy ===
/** Java's fixed-width integer arithmetic on Dafny's unbounded integers:
    `int` is 32-bit and `long` is 64-bit two's complement, `+` wraps around,
    and `%` truncates toward zero. */
module JavaInt {

  const INT_MIN: int := -0x8000_0000
  const INT_MAX: int := 0x7FFF_FFFF
  const LONG_MIN: int := -0x8000_0000_0000_0000
  const LONG_MAX: int := 0x7FFF_FFFF_FFFF_FFFF

  type Int32 = x: int | -0x8000_0000 <= x < 0x8000_0000
  type Int64 = x: int | -0x8000_0000_0000_0000 <= x < 0x8000_0000_0000_0000

  /** Java's `a + b` on two `int`s. */
  function Add32(a: Int32, b: Int32): (r: Int32)
    ensures INT_MIN <= a + b <= INT_MAX ==> r == a + b
    ensures a + b > INT_MAX ==> r == a + b - 0x1_0000_0000
    ensures a + b < INT_MIN ==> r == a + b + 0x1_0000_0000
  {
    (a + b - INT_MIN) % 0x1_0000_0000 + INT_MIN
  }

  /** Java's `a + b` on two `long`s. */
  function Add64(a: Int64, b: Int64): (r: Int64)
    ensures LONG_MIN <= a + b <= LONG_MAX ==> r == a + b
    ensures a + b > LONG_MAX ==> r == a + b - 0x1_0000_0000_0000_0000
    ensures a + b < LONG_MIN ==> r == a + b + 0x1_0000_0000_0000_0000
  {
    (a + b - LONG_MIN) % 0x1_0000_0000_0000_0000 + LONG_MIN
  }

  function Abs(x: int): (r: nat)
    ensures r == x || r == -x
  {
    if x < 0 then -x else x
  }

  /** Java's remainder `a % b`: the sign follows the dividend and the
      magnitude is below the divisor's. `b == 0` throws in Java; callers
      handle that case before calling. */
  function JavaRem(a: int, b: int): (r: int)
    requires b != 0
    ensures a >= 0 ==> 0 <= r < Abs(b)
    ensures a < 0 ==> -(Abs(b) as int) < r <= 0
    ensures a >= 0 && b > 0 ==> r == a % b
  {
    if a >= 0 then a % Abs(b) else -((-a) % Abs(b))
  }

  /** The sign of Java's remainder follows the dividend: negating the
      dividend negates the remainder. */
  lemma JavaRemNegatedDividend(a: int, b: int)
    requires b != 0
    ensures JavaRem(-a, b) == -JavaRem(a, b)
  {
    var n := Abs(b);
    if a > 0 {
      assert JavaRem(-a, b) == -(a % n);
    } else if a < 0 {
      assert JavaRem(-a, b) == (-a) % n;
    }
  }

  /** The divisor's sign does not matter to Java's remainder. */
  lemma JavaRemNegatedDivisor(a: int, b: int)
    requires b != 0
    ensures JavaRem(a, -b) == JavaRem(a, b)
  {
    assert Abs(-b) == Abs(b);
  }
}

=== FILE: power_up.dfy ===
/** Power-ups and their factory: a type name from a map file picks the kind,
    compared with Java's `String.equalsIgnoreCase`. */
module PowerUps {
  import opened Wrappers

  datatype Kind = Star | Music | Goal

  /** A power-up carries its kind and the animation it was built with. */
  datatype PowerUp<A> = PowerUp(kind: Kind, anim: A)

  /** `Character.toUpperCase` on the characters whose upper case is an ASCII
      letter: `a`-`z`, dotless `ı` (U+0131) and long `ſ` (U+017F). Every other
      character maps to itself here. */
  function UpperCase(c: char): (r: char)
  {
    if 'a' <= c <= 'z' then (c as int - 32) as char
    else if c == '\U{0131}' then 'I'
    else if c == '\U{017F}' then 'S'
    else c
  }

  /** `Character.toLowerCase` on the characters whose lower case is an ASCII
      letter: `A`-`Z`, dotted `İ` (U+0130) and the Kelvin sign (U+212A). Every
      other character maps to itself here. */
  function LowerCase(c: char): (r: char)
  {
    if 'A' <= c <= 'Z' then (c as int + 32) as char
    else if c == '\U{0130}' then 'i'
    else if c == '\U{212A}' then 'k'
    else c
  }

  /** The per-character test of `regionMatches(true, ...)`: equal, or equal
      upper cases, or equal lower cases of the upper cases. */
  predicate CharsMatchIgnoringCase(c1: char, c2: char)
  {
    c1 == c2 || UpperCase(c1) == UpperCase(c2) || LowerCase(UpperCase(c1)) == LowerCase(UpperCase(c2))
  }

  /** `s.equalsIgnoreCase(t)`: same length and every position matches. */
  predicate EqualsIgnoreCase(s: string, t: string)
  {
    |s| == |t| && forall i :: 0 <= i < |s| ==> CharsMatchIgnoringCase(s[i], t[i])
  }

  /** The case-folded key of a character and of a string. */
  function FoldChar(c: char): (r: char)
  {
    LowerCase(UpperCase(c))
  }

  function Fold(s: string): (r: string)
    ensures |r| == |s|
    ensures forall i :: 0 <= i < |s| ==> r[i] == FoldChar(s[i])
  {
    seq(|s|, i requires 0 <= i < |s| => FoldChar(s[i]))
  }

  /** `PowerUpFactory.createPowerUp(type, anim)`: the first of "Star",
      "Music", "Goal" that `type` equals ignoring case picks the kind, the
      animation is passed through, and any other name yields `null`. */
  function CreatePowerUp<A>(typeName: string, anim: A): (r: Option<PowerUp<A>>)
    ensures r.Some? ==> r.value.anim == anim
    ensures r == Some(PowerUp(Star, anim)) <==> EqualsIgnoreCase(typeName, "Star")
    ensures r == Some(PowerUp(Music, anim)) <==> EqualsIgnoreCase(typeName, "Music")
    ensures r == Some(PowerUp(Goal, anim)) <==> EqualsIgnoreCase(typeName, "Goal")
    ensures r.None? <==> !EqualsIgnoreCase(typeName, "Star") && !EqualsIgnoreCase(typeName, "Music")
                         && !EqualsIgnoreCase(typeName, "Goal")
  {
    NamesAreExclusive(typeName);
    if EqualsIgnoreCase(typeName, "Star") then Some(PowerUp(Star, anim))
    else if EqualsIgnoreCase(typeName, "Music") then Some(PowerUp(Music, anim))
    else if EqualsIgnoreCase(typeName, "Goal") then Some(PowerUp(Goal, anim))
    else None
  }

  /** No name equals two of the factory's names ignoring case. */
  lemma NamesAreExclusive(t: string)
    ensures !(EqualsIgnoreCase(t, "Star") && EqualsIgnoreCase(t, "Goal"))
    ensures !(EqualsIgnoreCase(t, "Star") && EqualsIgnoreCase(t, "Music"))
    ensures !(EqualsIgnoreCase(t, "Music") && EqualsIgnoreCase(t, "Goal"))
  {
    if EqualsIgnoreCase(t, "Star") && EqualsIgnoreCase(t, "Goal") {
      CharsMatchIffFoldsEqual(t[0], 'S');
      CharsMatchIffFoldsEqual(t[0], 'G');
      assert false;
    }
  }

  /** The character test is exactly equality of folded keys. */
  lemma CharsMatchIffFoldsEqual(c1: char, c2: char)
    ensures CharsMatchIgnoringCase(c1, c2) <==> FoldChar(c1) == FoldChar(c2)
  {
  }

  /** `equalsIgnoreCase` is exactly equality of folded strings. */
  lemma EqualsIgnoreCaseIffFoldsEqual(s: string, t: string)
    ensures EqualsIgnoreCase(s, t) <==> Fold(s) == Fold(t)
  {
    if Fold(s) == Fold(t) {
      forall i | 0 <= i < |s|
        ensures CharsMatchIgnoringCase(s[i], t[i])
      {
        assert Fold(s)[i] == Fold(t)[i];
        CharsMatchIffFoldsEqual(s[i], t[i]);
      }
    }
    if EqualsIgnoreCase(s, t) {
      forall i | 0 <= i < |s|
        ensures Fold(s)[i] == Fold(t)[i]
      {
        CharsMatchIffFoldsEqual(s[i], t[i]);
      }
    }
  }

  /** A folded name is its own key, so it is the canonical spelling: it
      equals the original name ignoring case. */
  lemma FoldIsIdempotent(s: string)
    ensures Fold(Fold(s)) == Fold(s)
    ensures EqualsIgnoreCase(Fold(s), s)
  {
    assert Fold(Fold(s)) == Fold(s) by {
      forall i | 0 <= i < |s|
        ensures Fold(Fold(s))[i] == Fold(s)[i]
      {
        assert FoldChar(FoldChar(s[i])) == FoldChar(s[i]);
      }
    }
    EqualsIgnoreCaseIffFoldsEqual(Fold(s), s);
  }

  /** The factory's answer depends only on the folded name. */
  lemma CreateDependsOnlyOnFold<A>(s: string, t: string, anim: A)
    requires Fold(s) == Fold(t)
    ensures CreatePowerUp(s, anim) == CreatePowerUp(t, anim)
  {
    EqualsIgnoreCaseIffFoldsEqual(s, "Star");
    EqualsIgnoreCaseIffFoldsEqual(t, "Star");
    EqualsIgnoreCaseIffFoldsEqual(s, "Music");
    EqualsIgnoreCaseIffFoldsEqual(t, "Music");
    EqualsIgnoreCaseIffFoldsEqual(s, "Goal");
    EqualsIgnoreCaseIffFoldsEqual(t, "Goal");
  }

  /** Names the factory accepts beyond the exact spellings: any letter case,
      and the non-ASCII letters Java folds onto `s` and `i`. */
  lemma AcceptedSpellings<A>(anim: A)
    ensures CreatePowerUp("STAR", anim) == Some(PowerUp(Star, anim))
    ensures CreatePowerUp("\U{017F}tar", anim) == Some(PowerUp(Star, anim))
    ensures CreatePowerUp("mus\U{0131}c", anim) == Some(PowerUp(Music, anim))
    ensures CreatePowerUp("MUS\U{0130}C", anim) == Some(PowerUp(Music, anim))
    ensures CreatePowerUp("gOaL", anim) == Some(PowerUp(Goal, anim))
    ensures CreatePowerUp("Stars", anim) == None
    ensures CreatePowerUp("", anim) == None
  {
    assert EqualsIgnoreCase("STAR", "Star");
    assert EqualsIgnoreCase("\U{017F}tar", "Star");
    assert EqualsIgnoreCase("mus\U{0131}c", "Music");
    assert EqualsIgnoreCase("MUS\U{0130}C", "Music");
    assert !EqualsIgnoreCase("MUS\U{0130}C", "Star");
    assert EqualsIgnoreCase("gOaL", "Goal");
    assert "gOaL"[0] == 'g' && "Star"[0] == 'S';
    assert !CharsMatchIgnoringCase('g', 'S');
    assert !EqualsIgnoreCase("gOaL", "Star");
    assert !EqualsIgnoreCase("gOaL", "Music");
    assert "Stars"[0] == 'S' && "Music"[0] == 'M';
    assert !CharsMatchIgnoringCase('S', 'M');
    assert !EqualsIgnoreCase("Stars", "Music");
  }
}

=== FILE: screen_modes.dfy ===
/** Display-mode matching: a wildcard comparison of two display modes and
    the search for the first requested mode the device supports. The
    device's mode list is a parameter. */
module ScreenModes {
  import opened Wrappers

  /** `java.awt.DisplayMode` wildcards: a bit depth of -1 means the mode
      offers several depths, a refresh rate of 0 means it is unknown. */
  const BIT_DEPTH_MULTI: int := -1
  const REFRESH_RATE_UNKNOWN: int := 0

  datatype DisplayMode = DisplayMode(width: int, height: int, bitDepth: int, refreshRate: int)

  /** `displayModesMatch`: sizes must agree exactly; a depth or rate on
      either side that is the wildcard matches anything. */
  function DisplayModesMatch(m1: DisplayMode, m2: DisplayMode): (b: bool)
    ensures m1.width != m2.width || m1.height != m2.height ==> !b
    ensures m1.bitDepth != BIT_DEPTH_MULTI && m2.bitDepth != BIT_DEPTH_MULTI && m1.bitDepth != m2.bitDepth ==> !b
    ensures (m1.refreshRate != REFRESH_RATE_UNKNOWN && m2.refreshRate != REFRESH_RATE_UNKNOWN
             && m1.refreshRate != m2.refreshRate) ==> !b
    ensures m1 == m2 ==> b
    ensures (m1.width == m2.width && m1.height == m2.height
             && (m1.bitDepth == BIT_DEPTH_MULTI || m2.bitDepth == BIT_DEPTH_MULTI)
             && (m1.refreshRate == REFRESH_RATE_UNKNOWN || m2.refreshRate == REFRESH_RATE_UNKNOWN)) ==> b
    ensures b <==> m1.width == m2.width && m1.height == m2.height
                   && (m1.bitDepth == BIT_DEPTH_MULTI || m2.bitDepth == BIT_DEPTH_MULTI || m1.bitDepth == m2.bitDepth)
                   && (m1.refreshRate == REFRESH_RATE_UNKNOWN || m2.refreshRate == REFRESH_RATE_UNKNOWN
                       || m1.refreshRate == m2.refreshRate)
  {
    if m1.width != m2.width || m1.height != m2.height then false
    else if m1.bitDepth != BIT_DEPTH_MULTI && m2.bitDepth != BIT_DEPTH_MULTI && m1.bitDepth != m2.bitDepth then false
    else if m1.refreshRate != REFRESH_RATE_UNKNOWN && m2.refreshRate != REFRESH_RATE_UNKNOWN
            && m1.refreshRate != m2.refreshRate then false
    else true
  }

  /** Matching does not depend on the order of its arguments. */
  lemma MatchIsSymmetric(m1: DisplayMode, m2: DisplayMode)
    ensures DisplayModesMatch(m1, m2) == DisplayModesMatch(m2, m1)
  {
  }

  /** Matching is not transitive: a wildcard depth matches two modes that do
      not match each other. */
  lemma MatchIsNotTransitive()
    ensures DisplayModesMatch(DisplayMode(800, 600, 16, 60), DisplayMode(800, 600, BIT_DEPTH_MULTI, 60))
    ensures DisplayModesMatch(DisplayMode(800, 600, BIT_DEPTH_MULTI, 60), DisplayMode(800, 600, 32, 60))
    ensures !DisplayModesMatch(DisplayMode(800, 600, 16, 60), DisplayMode(800, 600, 32, 60))
  {
  }

  /** Some device mode matches `m`. */
  predicate Supported(m: DisplayMode, device: seq<DisplayMode>)
  {
    exists j :: 0 <= j < |device| && DisplayModesMatch(m, device[j])
  }

  /** `findFirstCompatibleMode(modes)` against the device's modes: the first
      requested mode, in order, that some device mode matches; `null` when
      none does. The answer is taken from the requested list. */
  method FindFirstCompatibleMode(modes: seq<DisplayMode>, device: seq<DisplayMode>) returns (r: Option<DisplayMode>)
    ensures r.None? <==> forall i :: 0 <= i < |modes| ==> !Supported(modes[i], device)
    ensures r.Some? ==> exists i :: 0 <= i < |modes| && modes[i] == r.value
                                    && Supported(modes[i], device)
                                    && forall k :: 0 <= k < i ==> !Supported(modes[k], device)
  {
    var i := 0;
    while i < |modes|
      invariant 0 <= i <= |modes|
      invariant forall k :: 0 <= k < i ==> !Supported(modes[k], device)
    {
      var j := 0;
      while j < |device|
        invariant 0 <= j <= |device|
        invariant forall l :: 0 <= l < j ==> !DisplayModesMatch(modes[i], device[l])
      {
        if DisplayModesMatch(modes[i], device[j]) {
          return Some(modes[i]);
        }
        j := j + 1;
      }
      i := i + 1;
    }
    return None;
  }
}

=== FILE: world.dfy ===
/** The world the engine moves things in: a tile grid, the sprites on it,
    the sweep test against tiles and the overlap test between sprites.
    Positions are whole pixels; a tile is `tileSize` pixels square. */
module World {
  import opened Wrappers
  import PowerUps

  type TileSize = n: int | n > 0 witness 1

  /** A tile coordinate (the `Point` the sweep test returns). */
  datatype Point = Point(x: int, y: int)

  datatype LifeState = Alive | Dying | Dead

  /** The sprite classes as one tagged record: the player and the other
      creatures share the creature fields; a power-up carries its kind. */
  datatype SpriteKind = PlayerSprite | CreatureSprite | PowerUpSprite(item: PowerUps.Kind)

  datatype Sprite = Sprite(
    id: nat,            // object identity
    kind: SpriteKind,
    x: int, y: int,
    vx: int, vy: int,
    width: int, height: int,
    flying: bool,
    maxSpeed: int,
    state: LifeState)
  {
    /** `instanceof Creature` (the player is a creature too). */
    predicate IsCreature() {
      kind.PlayerSprite? || kind.CreatureSprite?
    }

    predicate IsAlive() {
      state == Alive
    }

    /** The box holds at least one pixel. */
    predicate NonEmpty() {
      width > 0 && height > 0
    }

    /** The pixel lies in the sprite's box. */
    predicate Covers(px: int, py: int) {
      x <= px < x + width && y <= py < y + height
    }
  }

  /** The loaded map: width in tiles (its height is never consulted), the
      occupied tiles, the active sprites in iteration order, and the player. */
  datatype TileMap = TileMap(width: int, solid: set<Point>, tileSize: TileSize, sprites: seq<Sprite>, player: Sprite)

  /** `pixelsToTiles`: the tile holding a pixel (floor division). */
  function PixelsToTiles(p: int, size: TileSize): (t: int)
    ensures t * size <= p < t * size + size
  {
    p / size
  }

  /** `tilesToPixels`: a tile's first pixel. */
  function TilesToPixels(t: int, size: TileSize): (p: int)
    ensures PixelsToTiles(p, size) == t
  {
    TileOfPixelIsUnique(t * size, t, size);
    t * size
  }

  /** Multiplying by a tile size keeps order. */
  lemma MulMonotone(a: int, b: int, size: TileSize)
    requires a <= b
    ensures a * size <= b * size
  {
    var d := b - a;
    assert b * size == a * size + d * size;
  }

  /** A pixel lies in exactly one tile: any `q` whose pixel range holds `p`
      is the tile `pixelsToTiles` answers. */
  lemma TileOfPixelIsUnique(p: int, q: int, size: TileSize)
    requires q * size <= p < q * size + size
    ensures PixelsToTiles(p, size) == q
  {
    var t := PixelsToTiles(p, size);
    if t < q {
      MulMonotone(t + 1, q, size);
    } else if t > q {
      MulMonotone(q + 1, t, size);
    }
  }

  /** The first pixel of a tile lies in that tile. */
  lemma TilesRoundTrip(t: int, size: TileSize)
    ensures PixelsToTiles(TilesToPixels(t, size), size) == t
    ensures PixelsToTiles(TilesToPixels(t, size) - 1, size) == t - 1
  {
    TileOfPixelIsUnique(t * size, t, size);
    TileOfPixelIsUnique(t * size - 1, t - 1, size);
  }

  /** Larger pixels lie in the same or a later tile. */
  lemma PixelsToTilesMonotone(p: int, q: int, size: TileSize)
    requires p <= q
    ensures PixelsToTiles(p, size) <= PixelsToTiles(q, size)
  {
    var a := PixelsToTiles(p, size);
    var b := PixelsToTiles(q, size);
    if a > b {
      MulMonotone(b + 1, a, size);
    }
  }

  /** The sweep test's notion of a blocking tile: off the map horizontally,
      or occupied. Rows are never bounds-checked. */
  predicate Blocks(m: TileMap, x: int, y: int)
  {
    x < 0 || x >= m.width || Point(x, y) in m.solid
  }

  /** An inclusive range of tile columns and rows. */
  datatype Box = Box(fromX: int, toX: int, fromY: int, toY: int)
  {
    predicate Contains(x: int, y: int) {
      fromX <= x <= toX && fromY <= y <= toY
    }
  }

  function Min(a: int, b: int): (r: int)
    ensures r <= a && r <= b && (r == a || r == b)
  {
    if a <= b then a else b
  }

  function Max(a: int, b: int): (r: int)
    ensures a <= r && b <= r && (r == a || r == b)
  {
    if a <= b then b else a
  }

  /** The tiles a sprite sweeps moving from its position to `(newX, newY)`:
      the union of both boxes, converted to tiles. */
  function SweepBox(m: TileMap, s: Sprite, newX: int, newY: int): (r: Box)
  {
    Box(PixelsToTiles(Min(s.x, newX), m.tileSize),
        PixelsToTiles(Max(s.x, newX) + s.width - 1, m.tileSize),
        PixelsToTiles(Min(s.y, newY), m.tileSize),
        PixelsToTiles(Max(s.y, newY) + s.height - 1, m.tileSize))
  }

  /** Scan order: columns left to right, each column top to bottom. */
  predicate ScansBefore(a: int, b: int, p: Point)
  {
    a < p.x || (a == p.x && b < p.y)
  }

  /** The inner loop: the first blocking row of column `x` from `y` to `toY`. */
  function ColumnScan(m: TileMap, x: int, y: int, toY: int): (r: Option<int>)
    ensures r.Some? ==> y <= r.value <= toY && Blocks(m, x, r.value)
    ensures r.Some? ==> forall b :: y <= b < r.value ==> !Blocks(m, x, b)
    ensures r.None? ==> forall b :: y <= b <= toY ==> !Blocks(m, x, b)
    decreases toY - y
  {
    if y > toY then None
    else if Blocks(m, x, y) then Some(y)
    else ColumnScan(m, x, y + 1, toY)
  }

  /** The outer loop: the first blocking tile of columns `x` to `box.toX`. */
  function BoxScan(m: TileMap, x: int, box: Box): (r: Option<Point>)
    requires box.fromX <= x
    ensures r.Some? ==> x <= r.value.x && box.Contains(r.value.x, r.value.y) && Blocks(m, r.value.x, r.value.y)
    ensures r.Some? ==> forall a, b :: x <= a && box.Contains(a, b) && ScansBefore(a, b, r.value) ==> !Blocks(m, a, b)
    ensures r.None? ==> forall a, b :: x <= a && box.Contains(a, b) ==> !Blocks(m, a, b)
    decreases box.toX - x
  {
    if x > box.toX then None
    else match ColumnScan(m, x, box.fromY, box.toY)
      case Some(y) => Some(Point(x, y))
      case None => BoxScan(m, x + 1, box)
  }

  /** `getTileCollision(sprite, newX, newY)`: the first blocking tile, in scan
      order, of the tiles swept by the move; `null` when there is none. */
  function TileCollision(m: TileMap, s: Sprite, newX: int, newY: int): (r: Option<Point>)
    ensures var box := SweepBox(m, s, newX, newY);
            r.None? <==> forall a, b :: box.Contains(a, b) ==> !Blocks(m, a, b)
    ensures var box := SweepBox(m, s, newX, newY);
            r.Some? ==> && box.Contains(r.value.x, r.value.y)
                        && Blocks(m, r.value.x, r.value.y)
                        && forall a, b :: box.Contains(a, b) && ScansBefore(a, b, r.value) ==> !Blocks(m, a, b)
  {
    var box := SweepBox(m, s, newX, newY);
    BoxScan(m, box.fromX, box)
  }

  /** No blocking tile under the sprite where it stands. */
  predicate Free(m: TileMap, s: Sprite)
  {
    TileCollision(m, s, s.x, s.y).None?
  }

  /** `isCollision(s1, s2)`: two different sprites, neither a creature that
      is not alive, whose boxes overlap strictly on both axes, that is, share
      a pixel when both boxes are non-empty. */
  function IsCollision(s1: Sprite, s2: Sprite): (b: bool)
    ensures b ==> s1.id != s2.id && !(s1.IsCreature() && !s1.IsAlive()) && !(s2.IsCreature() && !s2.IsAlive())
    ensures s1.NonEmpty() && s2.NonEmpty() ==>
              (b <==> && s1.id != s2.id
                      && !(s1.IsCreature() && !s1.IsAlive())
                      && !(s2.IsCreature() && !s2.IsAlive())
                      && exists px, py :: s1.Covers(px, py) && s2.Covers(px, py))
  {
    var hit := CollisionTest(s1, s2);
    if hit && s1.NonEmpty() && s2.NonEmpty() then
      // the corner of the overlap nearest the origin is a shared pixel
      assert s1.Covers(Max(s1.x, s2.x), Max(s1.y, s2.y)) && s2.Covers(Max(s1.x, s2.x), Max(s1.y, s2.y));
      hit
    else
      hit
  }

  /** The strict-inequality overlap test as the source writes it. */
  predicate CollisionTest(s1: Sprite, s2: Sprite)
  {
    && s1.id != s2.id
    && !(s1.IsCreature() && !s1.IsAlive())
    && !(s2.IsCreature() && !s2.IsAlive())
    && s1.x < s2.x + s2.width
    && s2.x < s1.x + s1.width
    && s1.y < s2.y + s2.height
    && s2.y < s1.y + s1.height
  }

  /** Overlap does not depend on the order of the two sprites, a sprite never
      collides with itself, and boxes that only touch do not collide. */
  lemma CollisionIsSymmetric(s1: Sprite, s2: Sprite)
    ensures IsCollision(s1, s2) == IsCollision(s2, s1)
    ensures !IsCollision(s1, s1)
    ensures s2.x == s1.x + s1.width ==> !IsCollision(s1, s2)
    ensures s2.y == s1.y + s1.height ==> !IsCollision(s1, s2)
  {
  }

  /** `getSpriteCollision(sprite)`: the index of the first sprite, in
      iteration order, that collides with `s`; `null` when none does. */
  function SpriteCollision(s: Sprite, sprites: seq<Sprite>): (r: Option<nat>)
    ensures r.Some? ==> r.value < |sprites| && IsCollision(s, sprites[r.value])
    ensures r.Some? ==> forall k :: 0 <= k < r.value ==> !IsCollision(s, sprites[k])
    ensures r.None? <==> forall k :: 0 <= k < |sprites| ==> !IsCollision(s, sprites[k])
  {
    if sprites == [] then None
    else if IsCollision(s, sprites[0]) then Some(0)
    else match SpriteCollision(s, sprites[1..])
      case None => None
      case Some(k) => Some(k + 1)
  }

  /** A creature that is not alive is never the sprite found. */
  lemma DeadAreNeverFound(s: Sprite, sprites: seq<Sprite>)
    ensures var r := SpriteCollision(s, sprites);
            r.Some? ==> !(sprites[r.value].IsCreature() && !sprites[r.value].IsAlive())
  {
  }
}

=== FILE: wrappers.dfy ===
/** Plain option and result datatypes standing in for Java's `null`
    returns and thrown exceptions. */
module Wrappers {

  /** A value that may be absent: `None` plays the part of a `null` reference. */
  datatype Option<+T> = None | Some(value: T)

  /** The outcome of an operation that can throw: `Failure` carries the exception. */
  datatype Result<+R, +E> = Success(value: R) | Failure(error: E)
}
